=== FILE: README.md ===
# Canopus admin dashboard, modelled in Dafny

This project models the client-side decision logic of the Canopus admin dashboard, a React
front end whose data all lives behind a remote API. The model covers six groups:

- **The work store** (`WorkContext`): how `assignedTo` is normalized to plain ids, and how
  the local list of work orders changes on add, update, delete and staff payment.
- **The work views** (`WorkManagement`, `WorkDetails`, `AddWork`, `DashboardHome`):
  - task progress and the status label;
  - the search box;
  - the staff payment handler that recomputes a work's net budget;
  - the add-work form's ordered checks and the payload it builds;
  - the home view's counters and its five latest work orders.
- **The session store** (`UserContext`): startup restore from browser storage, login,
  logout, user creation and deletion, profile and notification updates.
- **The user views** (`UserManagement`, `CreateUser`, `SettingsSection`):
  - who is listed and who may edit whom;
  - the create-user form's validation, including the email pattern;
  - the profile form's update payload.
- **The menu** (`MenuContext`, `Menu`, `MenuPopup`):
  - the menu store and its image guard;
  - category filtering and client-side pagination;
  - the page buttons and the category bar;
  - cascade deletion of a category's items;
  - the item form's checks.
- **Navigation** (`DashboardSidebar`, `Dashboard`): the sidebar entries a role sees, what
  clicking one does, and which view the dashboard renders for the active entry.

Every network call is a parameter of the operation that makes it. The parameter is
`Response<T> = Ok(body) | Failed(message)`, where `message` is the server's message if it
sent one. An operation returns the new state and the requests it sent, in order. An
awaited store call that rethrows returns `Outcome<T> = Resolved(value) | Rejected(message)`.

Browser storage is a `map<string, Stored>`, where a value is a user saved as JSON or a
plain string. The axios default `Authorization` header is a field of the session.

Other representations:

- **Money and prices** are `int`.
- **Timestamps** are `int`.
- **Parsed numbers** are `Option<int>`, with `None` standing for `NaN` or a missing value.
- **Strings** are `seq<char>`.
- **JavaScript truthiness** is written out: `TruthyText` means non-empty and `TruthyNumber`
  means present and non-zero.

Shared helpers:

- `Base` holds `Option`, `Response` and `Outcome`.
- `Seqs` holds `Filter`, `Map`, `Count`, the order-preserving sublist relation
  `IsSubsequence`, and JavaScript's `Array.prototype.slice` with relative and clamped indices.
- `Text` holds white space as JavaScript's `trim` sees it, `trim`, ASCII `toLowerCase`,
  `includes` and string comparison.

Every store operation has a partner property:

- an inverse: add then delete a work, create then delete a category or a user;
- a restart that must restore what was stored;
- idempotence: normalize, replace by id, merge a payment, change a role, log out;
- an independent description that the code is proved equal to: the email pattern
  against a description in words, the latest works against sortedness and
  "nothing left out is newer".

Two behaviours of the code are easy to miss, and the model keeps both:

- `normalizeAssignedTo` keeps duplicate ids: an id given twice is sent twice
  (`WorkContext.NormalizeAssignedTo` keeps each id as often as the input gives it).
- `createCategory` appends without checking for an existing name
  (`MenuContext.CreateCategory` appends unconditionally).

The dashboard page imports its sidebar as `components/AdminSidebar`. The model takes
that component to be the one defined, under the name `AdminSidebar`, in
`components/DashboardSidebar.jsx`.

One consequence of the code as written is worth stating, although it is not claimed as a
bug: the user table is gated on the role being exactly "admin". A superadmin therefore
neither sees the User Management entry nor gets past the gate
(`Dashboard.SuperadminNeverSeesUsers`), even though the table's own rules give
superadmins the widest rights.

## Model

| member | source | states |
|---|---|---|
| `WorkContext.PickId` | src/context/WorkContext.jsx:33-37 | a string entry is its own id; an object yields the first truthy of `value`, `user._id`, `_id`, in that priority, and nothing when none is truthy |
| `WorkContext.NormalizeAssignedTo` | src/context/WorkContext.jsx:29-39 | a falsy argument gives `[]` and a single value counts as a one-element list; the result keeps, in order, exactly the non-empty ids the entries yield, each as many times as the entries yield it, so it is never longer than the input and holds no empty id |
| `WorkContext.NormalizeIds` | src/context/WorkContext.jsx:32-38 | on a list of non-empty id strings normalizing is the identity (duplicates included) |
| `WorkContext.NormalizeIdempotent` | src/context/WorkContext.jsx:29-39 | normalizing an already normalized list changes nothing |
| `WorkContext.NormalizeUserRefs` | src/context/WorkContext.jsx:36 | ids wrapped as `{user: {_id: id}}` normalize back to the same ids, in order |
| `WorkContext.PrepareAdd` | src/context/WorkContext.jsx:44-50 | the add payload carries the normalized ids; a falsy head count (missing or 0) becomes the number of those ids; no other field changes |
| `WorkContext.PrepareUpdate` | src/context/WorkContext.jsx:66 | every update payload carries an `assignedTo` array, `[]` when the patch had none; nothing else changes |
| `WorkContext.CoercePayment` | src/context/WorkContext.jsx:106-110 | the payment sent always has a `violations` array; an existing one and the amount are kept |
| `WorkContext.ReplaceById` | src/context/WorkContext.jsx:76-78 | every work with the id is replaced by the record and every other keeps its place and value; the length is kept |
| `WorkContext.ReplaceByIdIdempotent` | src/context/WorkContext.jsx:76-78 | replacing twice by a record that keeps the id is replacing once |
| `WorkContext.AddWork` | src/context/WorkContext.jsx:42-61 | the prepared payload is posted; on success exactly the server's record is appended at the end; on failure the list is unchanged and only the status message changes, and nothing is rethrown |
| `WorkContext.UpdateWork` | src/context/WorkContext.jsx:64-87 | on success each work with the id becomes the server's record, the others keep their order and value; on failure only the message changes |
| `WorkContext.DeleteWork` | src/context/WorkContext.jsx:90-101 | only after the request succeeds are the works with the id removed: exactly those, with the rest kept in order and the length dropping by their count; on failure only the message changes |
| `WorkContext.UpdateStaffPayment` | src/context/WorkContext.jsx:104-129 | the coerced payment is sent, then the work with the id is replaced as on update; a failure changes only the message |
| `WorkContext.AddThenDelete` | src/context/WorkContext.jsx:53-93 | adding a work with a fresh id and then deleting that id restores the original list |
| `WorkContext.UpdateKeepsIds` | src/context/WorkContext.jsx:76-78 | an update whose server record keeps the id never changes which id sits at which position |
| `WorkContext.DefaultHeadCount` | src/context/WorkContext.jsx:49-50 | with no head count, or 0, a work gets one member per assigned id |
| `WorkManagement.RoundedPercent` | src/components/WorkManagement.jsx:26 | `Math.round(done/total*100)` is the whole percentage nearest to the exact ratio, halves up: always within 0..100, 100 exactly when at least 99.5% are done, 0 exactly when under 0.5% are |
| `WorkManagement.GetProgress` | src/components/WorkManagement.jsx:23-27 | no tasks (missing or empty) means 0; otherwise the share of tasks whose status is "done", as a percentage rounded half up, within 0..100; it is 100 exactly when at most one task in 200 is open, and 0 exactly when fewer than one in 200 is done |
| `WorkManagement.IsAssignedToMe` | src/components/WorkManagement.jsx:70-72 | a work is highlighted exactly when the current user's id (missing when nobody is logged in) is among the ids its assignments carry; a work without assignments never is |
| `WorkManagement.CompletedIffAllDone` | src/components/WorkManagement.jsx:23-27 | with fewer than 200 tasks the progress is 100 exactly when every task is done |
| `WorkManagement.StatusLabel` | src/components/WorkManagement.jsx:75-83 | "Completed" iff the progress is 100, "In Progress" iff it lies strictly between 0 and 100, "Pending" iff it is 0 |
| `WorkManagement.WorkStatusCompleted` | src/components/WorkManagement.jsx:73-83 | a card reads "Completed" exactly when the work has tasks and at least 99.5% of them are done |
| `WorkManagement.FilteredWorks` | src/components/WorkManagement.jsx:29-33 | the result is an order-preserving sublist of the works holding exactly those whose lower-cased title or description includes the lower-cased term |
| `WorkManagement.EmptySearchKeepsAll` | src/components/WorkManagement.jsx:29-33 | an empty search term keeps every work, in order |
| `WorkManagement.SearchIgnoresCase` | src/components/WorkManagement.jsx:31-32 | lower-casing the term first changes no search result |
| `WorkManagement.SearchFindsTitle` | src/components/WorkManagement.jsx:31 | a work is always found by its own title |
| `WorkManagement.AssignedToMeMeansNamed` | src/components/WorkManagement.jsx:70-72 | for a logged-in user the highlight holds iff some assignment names that user's id |
| `WorkManagement.NoUserMatchesUnlinkedAssignment` | src/components/WorkManagement.jsx:70-72 | with nobody logged in, an assignment without a user already matches (`undefined === undefined`) |
| `WorkManagement.JoinedCount` | src/components/WorkManagement.jsx:119 | the joined count is the number of assignments, 0 when there are none |
| `WorkDetails.OpenDetails` | src/components/WorkDetails.jsx:20-30 | the staff list is `assignedTo` or empty; the editable head count is `totalMembers`, else the number of assignments, else 0; the editable budget is the loaded budget, else 0 |
| `WorkDetails.TotalPaid` | src/components/WorkDetails.jsx:43-46 | the total paid is non-negative when every payment is, and 0 when nobody was paid (missing amounts count as 0) |
| `WorkDetails.TotalPaidUpdate` | src/components/WorkDetails.jsx:43-46 | changing one assignment changes the total by exactly the change in that assignment's payment |
| `WorkDetails.MergeEntry` | src/components/WorkDetails.jsx:39 | merging payment data over an entry overwrites the amount only when the data has one and always sets the violations, keeping the user and name |
| `WorkDetails.MergeStaff` | src/components/WorkDetails.jsx:38-40 | only the entries of the paid user change; length and order are kept |
| `WorkDetails.MergeStaffIdempotent` | src/components/WorkDetails.jsx:38-40 | merging the same payment twice is merging it once |
| `WorkDetails.NetBudget` | src/components/WorkDetails.jsx:47 | net budget plus total paid equals the editable budget; a budget that is not a number stays one |
| `WorkDetails.HandleStaffUpdate` | src/components/WorkDetails.jsx:34-56 | the payment is sent first, then a budget-only update; the view shows the merged staff and the net budget while the editable budget is left alone; a staff entry without a user stops the handler after the first request with the failure toast |
| `WorkDetails.StaffUpdateIgnoresResponses` | src/components/WorkDetails.jsx:49-52 | because the store swallows failures, the view and the success toast are the same whether or not either request succeeded |
| `WorkDetails.BudgetUpdateCarriesEmptyAssignees` | src/components/WorkDetails.jsx:49 | the budget-only update still sends `assignedTo`, as an empty list |
| `WorkDetails.RepeatedPaymentSameBudget` | src/components/WorkDetails.jsx:38-51 | within one opening of the view, recording the same payment again leaves the view, net budget included, unchanged |
| `WorkDetails.OverpaymentGoesNegative` | src/components/WorkDetails.jsx:47 | nothing bounds the net budget from below: paying 1500 against a budget of 1000 gives -500 |
| `WorkDetails.TwoPaymentsInOneSession` | src/components/WorkDetails.jsx:43-51 | within one opening, paying 2000 then 1500 brings a budget of 10000 to 8000 and then 6500 |
| `WorkDetails.ReopenSubtractsTwice` | src/components/WorkDetails.jsx:20-47 | as written, a payment made after the work is reopened subtracts the earlier payments a second time (10000, pay 2000, reopen, pay 1500 gives 4500) |
| `WorkDetails.CorrectedNetBudget` | src/components/WorkDetails.jsx:47 | the corrected net budget subtracts only the change in payments since the work was loaded |
| `WorkDetails.HandleStaffUpdateCorrected` | src/components/WorkDetails.jsx:34-56 | the handler with the corrected net budget, otherwise as written |
| `WorkDetails.CorrectedKeepsBudgetInvariant` | src/components/WorkDetails.jsx:47-51 | with the correction, every payment in an opening, the first or any later one, keeps "stored budget = allotted budget − everything paid" for the work a later opening loads, and leaves the view ready for the next payment, so the invariant carries over between payments and between openings |
| `WorkDetails.OpeningIsReady` | src/components/WorkDetails.jsx:20-30 | opening the view on a work that meets the invariant, with linked staff, gives a view in which that invariant holds for the next payment |
| `WorkDetails.CorrectedAgreesOnFreshWork` | src/components/WorkDetails.jsx:47 | for a work with nothing paid yet, the corrected and the written handler agree |
| `WorkDetails.HandleWorkUpdate` | src/components/WorkDetails.jsx:58-74 | one update is sent with the edited fields, the budget and head count coerced with missing values as 0, and `assignedTo` as `[]`; the displayed work takes exactly the sent title, description, due date, budget and head count, and its `assignedTo` becomes `[]` because `updateWork` overwrote it in the object that is spread; edit mode ends |
| `WorkDetails.ReopenAfterUpdate` | src/components/WorkDetails.jsx:58-74 | reopening the panel on the work a save displayed shows the edit form exactly as it was sent, the counts coerced to numbers, and an empty staff list |
| `WorkDetails.Progress` | src/components/WorkDetails.jsx:86-92 | the panel's progress is 0 without tasks and otherwise the rounded percentage of "done" tasks, within 0..100 |
| `AddWork.ToggleStaff` | src/components/AddWork.jsx:28-35 | checking appends an id not yet selected at the end and leaves a present id in its place; unchecking removes it; the selection never holds a duplicate and nothing else changes |
| `AddWork.CombineDateAndTime` | src/components/AddWork.jsx:37-40 | nothing when the date or the time is missing, else the date and time joined as a local date-time |
| `AddWork.HandleSubmit` | src/components/AddWork.jsx:53-95 | `handleSubmit`'s checks run in order and the first failure decides the message: required fields (an unparsable budget gets through), then at least one staff member, then end after start when both times are given; only when all pass is a payload built, with the trimmed title, the head count and one `{user: {_id}}` per selected id |
| `AddWork.EqualTimesRejected` | src/components/AddWork.jsx:81-84 | a start time equal to the end time is rejected |
| `AddWork.Submit` | src/components/AddWork.jsx:97-98 | when `handleSubmit` blocks, nothing is sent and the store is left alone; a submitted form reaches `addWork`, and the success toast shows even when the request fails |
| `AddWork.SubmittedPayloadRoundTrip` | src/components/AddWork.jsx:94 | the request carries exactly the selected ids, in order, after normalization, and the form's own head count |
| `UserContext.SignedOut` | src/context/UserContext.jsx:7-9 | a fresh session has no user, no users, the default preferences and no header |
| `UserContext.FetchAllUsers` | src/context/UserContext.jsx:28-36 | a success replaces the user list; a failure changes nothing |
| `UserContext.Restore` | src/context/UserContext.jsx:13-25 | the user, their preferences (or the defaults) and the header "Bearer " + token come back iff both a stored user and a non-empty stored token exist |
| `UserContext.Login` | src/context/UserContext.jsx:52-68 | on success the user goes under "user" and the token under "token", the header becomes "Bearer " + token and the user resolves; a failure rejects with the session unchanged |
| `UserContext.Logout` | src/context/UserContext.jsx:105-112 | back to the signed-out state: no user or users, the default preferences, no header, both storage keys gone and every other key kept |
| `UserContext.LoginSurvivesRestart` | src/context/UserContext.jsx:57-61 | after a login with a non-empty token, a restart restores the same user and header |
| `UserContext.LogoutSurvivesRestart` | src/context/UserContext.jsx:105-112 | after a logout, a restart restores nobody and no header |
| `UserContext.LogoutIdempotent` | src/context/UserContext.jsx:105-112 | logging out twice is logging out once |
| `UserContext.CreateUser` | src/context/UserContext.jsx:39-49 | on success the server's user is appended and resolved; a failure rejects and the list is unchanged |
| `UserContext.DeleteUser` | src/context/UserContext.jsx:115-125 | on success no user with the id remains, the rest keep their order, and deleting oneself logs out; a failure rejects and nothing changes |
| `UserContext.CreateThenDelete` | src/context/UserContext.jsx:115-125 | deleting a user just created under a fresh id, not one's own, gives the session back unchanged |
| `UserContext.UpdateUser` | src/context/UserContext.jsx:71-85 | with nobody logged in it resolves with nothing and changes nothing; otherwise a success replaces the user in the session and in storage, and a failure rejects |
| `UserContext.UpdateNotifications` | src/context/UserContext.jsx:88-101 | with nobody logged in, or on failure, nothing changes; otherwise only the preferences change, in the session, the user and storage |
| `UserContext.NotificationsSurviveRestart` | src/context/UserContext.jsx:94-97 | new preferences come back after a restart |
| `UserManagement.VisibleUsers` | src/components/UserManagement.jsx:15 | exactly the users whose role is not "superadmin", in order |
| `UserManagement.FilteredUsers` | src/components/UserManagement.jsx:17-22 | exactly the visible users whose lower-cased name, email or role includes the lower-cased term, in the order of the visible list |
| `UserManagement.EmptySearchListsVisible` | src/components/UserManagement.jsx:17-22 | an empty search lists every visible user, in order |
| `UserManagement.SearchFindsRole` | src/components/UserManagement.jsx:21 | a user is always found by their own role |
| `UserManagement.CardCountsBounded` | src/components/UserManagement.jsx:24-27 | admins + managers + staff never exceed the total shown |
| `UserManagement.GetRoleOptions` | src/components/UserManagement.jsx:48-51 | a superadmin is offered "admin", "manager" and "staff"; anyone else is offered only "staff"; "superadmin" is never offered |
| `UserManagement.CanEditOrDelete` | src/components/UserManagement.jsx:53-57 | a superadmin acts on anyone but a superadmin, an admin only on staff, everyone else on nobody; so an admin acts only on users whose role it could itself assign |
| `UserManagement.OnlyAdminsEdit` | src/components/UserManagement.jsx:53-57 | only superadmins and admins may act on anyone, and nobody may act on a superadmin |
| `UserManagement.RoleOptionsKeepEditable` | src/components/UserManagement.jsx:48-57 | any role the current user may hand out leaves the target editable by them |
| `UserManagement.FirstIndex` | src/components/UserManagement.jsx:30 | `findIndex` gives the first position holding the id, or nothing iff no user has it |
| `UserManagement.HandleRoleChange` | src/components/UserManagement.jsx:29-34 | only the first user with the id gets the new role, everyone else is unchanged, and an absent id changes nothing |
| `UserManagement.OnlyFirstMatchChanges` | src/components/UserManagement.jsx:30-31 | a later user sharing the id keeps their role |
| `UserManagement.RoleChangeIdempotent` | src/components/UserManagement.jsx:29-34 | setting the same role twice is setting it once |
| `CreateUser.AtIndex` | src/components/CreateUser.jsx:22 | the position of the first '@', or the length when there is none |
| `CreateUser.EmailRuleInWords` | src/components/CreateUser.jsx:22-23 | the pattern `^[^\s@]+@[^\s@]+\.[^\s@]+$` accepts exactly the addresses without white space that have one '@', a non-empty local part, and a '.' strictly inside the domain |
| `CreateUser.ValidateForm` | src/components/CreateUser.jsx:19-28 | each message is returned exactly when its rule is the first to fail, in the form's order (name, email blank, email shape, password blank, password under six characters, role), and nothing iff every rule passes |
| `CreateUser.BlankEmailIsMalformed` | src/components/CreateUser.jsx:21-23 | a well-formed address is never blank, so the blank check and the shape check never disagree |
| `CreateUser.PaddedPasswordPasses` | src/components/CreateUser.jsx:24-25 | the blank check trims but the length check does not: "  abcd" passes |
| `CreateUser.PassingForm` | src/components/CreateUser.jsx:27 | a form that meets every rule passes |
| `CreateUser.HandleSubmit` | src/components/CreateUser.jsx:30-55 | `handleSubmit` on a form that fails `validateForm` shows its message and sends nothing; a created user resets the form with the success message; a failure keeps the form and shows the server's message or the fallback; error and success never show together |
| `CreateUser.ResubmitAfterSuccessBlocked` | src/components/CreateUser.jsx:30-55 | after a success, `handleSubmit` on the reset form fails on the empty name, so it sends nothing and the session is unchanged |
| `CreateUser.SentAsTyped` | src/components/CreateUser.jsx:26-43 | lower-casing the role changes nothing on a form that passed, so the data is sent as typed, with role "admin" or "staff" |
| `SettingsSection.InitialForm` | src/components/SettingsSection.jsx:7-12 | the name, email and picture come from the user, or "" without one; the password always starts empty |
| `SettingsSection.Updates` | src/components/SettingsSection.jsx:25-26 | the update carries every field unchanged and omits the password exactly when it is empty |
| `SettingsSection.UntouchedFormSendsProfile` | src/components/SettingsSection.jsx:7-26 | an untouched form sends the user's own details back, without a password |
| `SettingsSection.HandleSubmit` | src/components/SettingsSection.jsx:19-36 | in `handleSubmit`, the failure message shows iff a logged-in user's update rejects, the success message otherwise; `handleSubmit` sends an update iff someone is logged in |
| `SettingsSection.NoUserStillReportsSaved` | src/components/SettingsSection.jsx:28-29 | with nobody logged in nothing is sent and nothing changes, yet the form reports the profile saved |
| `SettingsSection.SavedProfileSurvivesRestart` | src/components/SettingsSection.jsx:28 | a saved profile comes back after a restart while the token is kept |
| `DashboardSidebar.MenuItems` | src/components/DashboardSidebar.jsx:15-27 | Dashboard and Works first and Settings and Logout last, User Management iff the role is exactly "admin"; 5 entries for admin and 4 otherwise, with distinct captions; only Logout has an action |
| `DashboardSidebar.Click` | src/components/DashboardSidebar.jsx:53-57 | Logout logs out and leaves the navigation alone; any other entry becomes active and closes the sidebar |
| `DashboardSidebar.ClickStaysOnMenu` | src/components/DashboardSidebar.jsx:53-57 | after a navigating click the active label is an entry the user sees |
| `Dashboard.RenderContent` | src/pages/Dashboard.jsx:17-36 | "Works" renders the works view; "User Management" renders the table iff the role is exactly "admin", else the access-denied notice; every other label renders the home view |
| `Dashboard.OpensOnHome` | src/pages/Dashboard.jsx:13 | the page opens on the home view |
| `Dashboard.SettingsShowsHome` | src/pages/Dashboard.jsx:17-36 | as written, the Settings entry renders the home view, like Dashboard |
| `Dashboard.RenderContentWithSettings` | src/pages/Dashboard.jsx:17-36 | the corrected selection: "Settings" renders the settings view, every other label as before |
| `Dashboard.EntriesRenderDistinctViews` | src/pages/Dashboard.jsx:17-36 | with the correction, every navigable entry renders its own view |
| `Dashboard.EntriesNeverDenied` | src/pages/Dashboard.jsx:26-34 | no entry a user sees leads to the access-denied notice |
| `Dashboard.SuperadminNeverSeesUsers` | src/pages/Dashboard.jsx:27 | a superadmin neither sees the User Management entry nor passes its gate |
| `DashboardHome.StaffCardsAgree` | src/components/DashboardHome.jsx:16-19 | the home view's staff count equals the user table's Staff card: hiding superadmins never hides a staff member |
| `DashboardHome.StaffCount` | src/components/DashboardHome.jsx:16-19 | the staff count is the number of users whose lower-cased role is "staff"; it never exceeds the user count and is 0 exactly when no user is staff |
| `DashboardHome.StaffCountCons` | src/components/DashboardHome.jsx:16-19 | no users count 0, and each further user adds one exactly when their lower-cased role is "staff" |
| `DashboardHome.Summarize` | src/components/DashboardHome.jsx:21-32 | completed counts the works whose lower-cased status is "done" or "completed", pending counts the others, and together they make the total |
| `DashboardHome.SortDesc` | src/components/DashboardHome.jsx:36-37 | the sorted copy is newest first and a permutation of the works |
| `DashboardHome.LatestWorks` | src/components/DashboardHome.jsx:34-40 | at most five works (all of them when fewer), newest first, drawn from the works, with none left out newer than one shown and the newest first |
| `DashboardHome.FewWorksAllListed` | src/components/DashboardHome.jsx:38 | with five works or fewer, every one of them is listed |
| `DashboardHome.AssigneeName` | src/components/DashboardHome.jsx:138 | the user's name when it is non-empty, else the entry's own name when that is non-empty, else "Unnamed"; never empty |
| `DashboardHome.JoinContainsEach` | src/components/DashboardHome.jsx:139 | each part can be found in the joined text |
| `DashboardHome.AssignedNames` | src/components/DashboardHome.jsx:136-140 | "Not assigned" without assignees, otherwise a text in which every assignee's shown name occurs |
| `MenuContext.FetchMenuItems` | src/context/MenuContext.jsx:16-30 | a success replaces the items (default none) and the page count, which is 1 when the server sends none or 0, and clears the error; a failure keeps both and records an error, the server's message when it sent one |
| `MenuContext.FetchCategories` | src/context/MenuContext.jsx:33-40 | a success replaces the category names; a failure changes nothing |
| `MenuContext.SetPage` | src/context/MenuContext.jsx:72-75 | a page change fetches the items of that page and the categories |
| `MenuContext.WriteThenFetch` | src/context/MenuContext.jsx:43-58 | a write that succeeds is followed by a refetch of the current page; one that fails rejects before any refetch |
| `MenuContext.AddMenuItem` | src/context/MenuContext.jsx:43-47 | an empty image rejects before any request; otherwise the item is posted and the call resolves iff the post succeeds |
| `MenuContext.UpdateMenuItem` | src/context/MenuContext.jsx:49-53 | the same guard, then a PUT under the item's id |
| `MenuContext.AddAndUpdateAgree` | src/context/MenuContext.jsx:43-53 | an add and an update of the same data guard the image alike, resolve alike and leave the same store; they differ only in the writing request |
| `MenuContext.UpdateTwiceIsOnce` | src/context/MenuContext.jsx:49-53 | saving the same item twice against an unchanged server leaves the store as one save does |
| `MenuContext.DeleteMenuItem` | src/context/MenuContext.jsx:55-58 | the DELETE is always sent, a refetch follows a success, and a failure leaves the store alone |
| `MenuContext.CreateCategory` | src/context/MenuContext.jsx:61-65 | a blank name does nothing; otherwise the untrimmed name is appended once the server accepts it, with no duplicate check |
| `MenuContext.DeleteCategory` | src/context/MenuContext.jsx:67-70 | once the server accepts, no copy of the name remains and every other category keeps all its copies, in order |
| `MenuContext.CreateThenDeleteCategory` | src/context/MenuContext.jsx:61-70 | deleting a category just created restores the list |
| `Menu.FilteredItems` | src/components/Menu.jsx:43-46 | every loaded item under "All", else exactly the items of the active category, in order |
| `Menu.PaginatedItems` | src/components/Menu.jsx:48-51 | never more than twenty items; for a page from 1 on, exactly the page's window of the filtered items |
| `Menu.TotalPages` | src/components/Menu.jsx:53 | the fewest pages of twenty that hold the filtered items, 0 for none |
| `Menu.ItemOnItsPage` | src/components/Menu.jsx:48-53 | every filtered item appears on the page its position says, and that page lies within the page count |
| `Menu.PagesBeyondLastEmpty` | src/components/Menu.jsx:48-53 | a page past the last shows nothing |
| `Menu.ServerPageSlicedAgain` | src/components/Menu.jsx:31-51 | the loaded list is already one server page and is sliced again by page number, so from page 2 on a server page of at most twenty items shows nothing |
| `Menu.HandlePrev` | src/components/Menu.jsx:55 | the page moves back by at most one, moves exactly when it is beyond page 1, and from a page from 1 on never goes below 1 |
| `Menu.HandleNext` | src/components/Menu.jsx:56 | the page moves forward by at most one, moves exactly when it is below the page count, and from within the count never passes it |
| `Menu.WalkStaysInRange` | src/components/Menu.jsx:55-56 | from any page from 1 on, no sequence of clicks goes below 1 or past the largest page count seen |
| `Menu.CategoryBar` | src/components/Menu.jsx:115 | "All" first and only there, then every other category in order, each as many times as the list holds it, so none is lost |
| `Menu.ActiveAfterCategoriesChange` | src/components/Menu.jsx:35-41 | "All" when the list has it; otherwise the first category when there is a non-empty one, and "All" when the list is empty or its first name is empty |
| `Menu.ResetSelectsAButton` | src/components/Menu.jsx:35-41 | the category the reset selects is always a button of the bar |
| `Menu.HandleAddCategory` | src/components/Menu.jsx:58-68 | a blank name alerts and sends nothing; a created category becomes the selection and the input clears; a failure alerts and keeps both |
| `Menu.DeleteMenuItemDeletes` | src/context/MenuContext.jsx:55-58 | one item deletion deletes exactly that item, whatever the responses |
| `Menu.DeleteEach` | src/components/Menu.jsx:79-81 | the loop deletes the targets in order, and the deleted ids are a prefix of the targets, all of them when nothing failed |
| `Menu.DeleteEachStopsAtFirstFailure` | src/components/Menu.jsx:79-81 | the loop stops at the first deletion that throws: every response before it succeeded, the last attempted one failed, and the loop fails exactly when some target's deletion throws |
| `Menu.DeleteEachKeepsCategories` | src/components/Menu.jsx:79-81 | deleting items never touches the category list |
| `Menu.HandleDeleteCategory` | src/components/Menu.jsx:70-88 | nothing without confirmation; the category goes first, then the loaded items of that category one by one; once the category is deleted, an alert shows exactly when some item's deletion throws, and then the selection is kept; a full success moves a selection of that category back to "All" |
| `Menu.ItemsInCategory` | src/components/Menu.jsx:78 | exactly the loaded items of the category, in their order |
| `Menu.CategoryItemsKeepCopies` | src/components/Menu.jsx:78 | the category's items keep every copy of each item of that category and no other item, and they are the items the page shows for that category |
| `MenuPopup.InitialForm` | src/components/MenuPopup.jsx:10-17 | the edited item's fields, or empty ones for a new item, with a falsy price left empty and a missing category as "All" |
| `MenuPopup.InitialCategoryIsAnOption` | src/components/MenuPopup.jsx:114-121 | the category a form starts with is one of the select's options whenever it is a known category |
| `MenuPopup.HandleSubmit` | src/components/MenuPopup.jsx:54-73 | in `handleSubmit`, a missing image alerts first, then a missing name or falsy price (0 included), each sending nothing; otherwise an edit updates under the item's id and a new item is added; the form closes iff the write succeeds and alerts iff it fails |
| `MenuPopup.UnchangedEditRoundTrip` | src/components/MenuPopup.jsx:10-62 | re-saving an unchanged item sends its own fields back under its id |
| `MenuPopup.BlankNewFormAlerts` | src/components/MenuPopup.jsx:16-56 | `handleSubmit` on a new item's untouched form stops at the image check and sends nothing |

## Left out

- HTTP through axios: every request is an input `Response`. The server's behaviour,
  including what `/menu?page=` returns, is not modelled.
- A null or malformed response body is not modelled. `res.data.work`, `res.data.user` and
  similar are taken as present.
- Toasts and alerts are not modelled as effects, except the messages the handlers choose.
  The work store's status message is modelled. The store's own toasts, including the
  server's message in a failure toast, are not.
- `fetchWorks` and `fetchWorkWithStatus` in the work store are not modelled: they are plain
  loads whose result is the server's.
- `handleDelete` in the work details and in the user table (confirm, call, alert) is not
  modelled beyond the store operations it calls (`WorkContext.DeleteWork`,
  `UserContext.DeleteUser`).
- `parseFloat`/`parseInt` are not modelled: numbers arrive parsed, as whole numbers, with
  `None` for `NaN`. Fractional money and floating-point rounding are out of scope, and
  `Math.round` is exact rational rounding.
- Dates are not modelled: `toISOString`, `toLocaleDateString` and `Date` parsing depend on
  the time zone and locale. `combineDateAndTime` yields the local date-time text, not its
  UTC conversion, and `createdAt` is an integer timestamp.
- A `createdAt` that does not parse (a `NaN` comparator) is out of scope.
- `toLowerCase` is modelled for ASCII letters only.
- `JSON.parse`/`JSON.stringify` and storage are abstracted: a stored user is a value of its
  own kind, and a malformed stored user (where `JSON.parse` throws) is out of scope.
- React scheduling is not modelled: the loading flags, effect ordering, stale closures and
  double submits are out of scope. The effect that resets the selected category after any
  change of `categories` runs after the add and delete handlers. The model states each
  handler's own selection and the reset separately
  (`Menu.ActiveAfterCategoriesChange`).
- The menu page's own `fetchMenuItems(page, 20)` effect duplicates the store's page effect
  and is modelled once, by `MenuContext.SetPage`.
- The Cloudinary image upload in the item form is out of scope (external network I/O). The
  image is a form field.
- `window.confirm` is a boolean input.
- The browser's own form validation is not modelled. The forms mark fields `required`, give
  `min` bounds and use `type="email"`, and none sets `noValidate`, so the browser can refuse a
  submit before `handleSubmit` runs. Every handler in the model starts after that step. For
  example, an untouched new menu item is stopped by the browser at the empty name, before
  `handleSubmit`'s image check.
- The auto-close timer of the create-user form is not modelled.
- `DashboardHome.LatestWorks`: the order among works with the same `createdAt` is not
  stated. The function sorts stably, but no contract says so.
- `DashboardHome.AssignedNames`: states that every name occurs in the text and the empty
  case. It does not state the exact ", "-separated layout.
- `MenuContext.FetchMenuItems`: a transport failure's own message (`err.message`) is
  abstracted to a single error value.
- `WorkManagement.CompletedIffAllDone`: stated for fewer than 200 tasks. From 200 on, one
  open task rounds to 100%, which `WorkManagement.GetProgress` states exactly.
- `AddWork.ToggleStaff`: the set in `handleCheckboxChange` is mutated in place, and the
  form reset clears it. The model gives the resulting sequence in insertion order.
- `WorkDetails.MergeEntry`: the paid amount is taken to be a number or absent. `None`
  stands for an absent amount, which keeps the old one. A `NaN` amount, which the
  spread would write over the old one and the net budget would then count as 0, is not
  modelled.
- `CreateUser.ValidateForm`: the six-character password rule counts characters. JavaScript's
  `length` counts UTF-16 code units, so a password with characters outside the Basic
  Multilingual Plane can pass there with fewer than six characters.
- Loader, the route table and the app shell are outside the core.

## Findings

| source | as written | input that shows it | evidently intended | confidence | as-written member | corrected member |
|---|---|---|---|---|---|---|
| src/components/WorkDetails.jsx:47 | `netBudget = editableWork.budget - totalPaid`. The budget is the one loaded (line 28), which earlier payments already reduced, and `totalPaid` counts those payments again | budget 10000; pay A 2000, giving 8000; close and reopen the work; pay B 1500, giving 4500 | 6500: the remaining budget drops only by the new payment, so budget + everything paid stays the allotted budget | not executed | `WorkDetails.ReopenSubtractsTwice` | `WorkDetails.CorrectedKeepsBudgetInvariant` |
| src/pages/Dashboard.jsx:17-36 | `renderContent` has no "Settings" case, so the default case renders the home view | click Settings in the sidebar: the heading says "Settings" and the page shows the dashboard home | the Settings entry renders the profile settings view | not executed | `Dashboard.SettingsShowsHome` | `Dashboard.EntriesRenderDistinctViews` |

=== FILE: add_work.dfy ===
/** The add-work form: the staff checkboxes, the submit handler's ordered checks,
    the payload it builds, and what submitting does to the work store. */
module AddWork {
  import opened Base
  import Seqs
  import Text
  import opened WorkContext

  const RequiredMessage := "Please fill all required fields correctly."
  const StaffMessage := "Please assign at least one staff member."
  const TimeMessage := "End time must be after start time."

  /** The form's raw inputs. Numbers are parsed already: `None` stands for `NaN`.
      `selected` is the checkbox set in insertion order, as `Array.from` lists it. */
  datatype AddWorkForm = AddWorkForm(
    title: string,
    description: string,
    dueDate: string,
    startTime: string,
    endTime: string,
    totalMembers: Option<int>,
    budget: Option<int>,
    selected: seq<string>)

  /** The submit handler's verdict: a toast that stops it, or the payload for `addWork`. */
  datatype Submission = Blocked(message: string) | Submitted(payload: WorkPayload)

  /** `handleCheckboxChange`: checking adds the id to the set (a present id keeps its
      place), unchecking removes it. */
  function ToggleStaff(selected: seq<string>, id: string, checked: bool): (r: seq<string>)
    requires Seqs.NoDuplicates(selected)
    ensures Seqs.NoDuplicates(r)
    ensures checked ==> (id in r && forall x :: x in selected ==> x in r)
    ensures checked ==> forall x :: x in r ==> x in selected || x == id
    ensures !checked ==> id !in r
    ensures !checked ==> forall x :: x in r <==> x in selected && x != id
    ensures Seqs.IsSubsequence(selected, r) || Seqs.IsSubsequence(r, selected)
    ensures checked && id !in selected ==> r == selected + [id]
    ensures checked && id in selected ==> r == selected
  {
    if checked then
      if id in selected then
        Seqs.SubsequenceReflexive(selected);
        selected
      else
        AppendKeepsSubsequence(selected, id);
        selected + [id]
    else
      var r := Seqs.Filter(selected, (x: string) => x != id);
      FilterNoDuplicates(selected, (x: string) => x != id);
      r
  }

  /** A list is an order-preserving sublist of itself with one element appended. */
  lemma {:induction false} AppendKeepsSubsequence(s: seq<string>, x: string)
    ensures Seqs.IsSubsequence(s, s + [x])
  {
    if s != [] {
      assert (s + [x])[1..] == s[1..] + [x];
      AppendKeepsSubsequence(s[1..], x);
    }
  }

  /** Filtering never creates duplicates. */
  lemma {:induction false} FilterNoDuplicates(s: seq<string>, p: string -> bool)
    requires Seqs.NoDuplicates(s)
    ensures Seqs.NoDuplicates(Seqs.Filter(s, p))
  {
    if s != [] {
      assert Seqs.NoDuplicates(s[1..]);
      FilterNoDuplicates(s[1..], p);
      var rest := Seqs.Filter(s[1..], p);
      if p(s[0]) {
        assert s[0] !in s[1..];
        assert s[0] !in rest;
      }
    }
  }

  /** The first check: a blank title, no due date, a head count that is missing or
      not positive, or a budget that parsed to a number not above 0. A budget that
      did not parse at all passes (`NaN <= 0` is false). */
  predicate FailsRequired(f: AddWorkForm) {
    || Text.IsBlank(f.title)
    || f.dueDate == ""
    || !(f.totalMembers.Some? && f.totalMembers.value > 0)
    || (f.budget.Some? && f.budget.value <= 0)
  }

  /** The third check: both times given and the start not before the end, compared
      as strings. */
  predicate TimesInverted(f: AddWorkForm) {
    f.startTime != "" && f.endTime != "" && !Text.StrLess(f.startTime, f.endTime)
  }

  /** `combineDateAndTime`: nothing when either part is missing, else the local
      date-time `date` T `time` `:00`. */
  function CombineDateAndTime(date: string, time: string): (r: Option<string>)
    ensures r.None? <==> date == "" || time == ""
    ensures r.Some? ==> r.value == date + "T" + time + ":00"
  {
    if date == "" || time == "" then None else Some(date + "T" + time + ":00")
  }

  /** Each selected id as `{ user: { _id: id } }`. */
  function StaffRefs(ids: seq<string>): seq<Assignee> {
    Seqs.Map(ids, (id: string) => Ref(None, Some(id), None))
  }

  /** `handleSubmit`: the checks run in order and the first that fails stops the
      submission with its own message; only when all pass is a payload built. */
  function HandleSubmit(f: AddWorkForm): (r: Submission)
    ensures r == Blocked(RequiredMessage) <==> FailsRequired(f)
    ensures r == Blocked(StaffMessage) <==> !FailsRequired(f) && |f.selected| == 0
    ensures r == Blocked(TimeMessage) <==> !FailsRequired(f) && |f.selected| > 0 && TimesInverted(f)
    ensures r.Submitted? <==> !FailsRequired(f) && |f.selected| > 0 && !TimesInverted(f)
    ensures r.Submitted? ==>
      && r.payload.title == Some(Text.Trim(f.title)) && r.payload.title != Some("")
      && r.payload.totalMembers == f.totalMembers && r.payload.totalMembers.value > 0
      && r.payload.budget == f.budget
      && r.payload.assignedTo == Many(StaffRefs(f.selected))
      && (r.payload.startTime.None? <==> f.startTime == "")
  {
    if FailsRequired(f) then Blocked(RequiredMessage)
    else if |f.selected| == 0 then Blocked(StaffMessage)
    else if TimesInverted(f) then Blocked(TimeMessage)
    else
      Submitted(WorkPayload(
        Some(Text.Trim(f.title)), Some(Text.Trim(f.description)), Some(f.dueDate),
        CombineDateAndTime(f.dueDate, f.startTime), CombineDateAndTime(f.dueDate, f.endTime),
        f.totalMembers, f.budget, Many(StaffRefs(f.selected))))
  }

  /** A start time equal to the end time is rejected; a start time missing altogether
      skips the time check. */
  lemma EqualTimesRejected(f: AddWorkForm)
    requires !FailsRequired(f) && |f.selected| > 0
    requires f.startTime != "" && f.startTime == f.endTime
    ensures HandleSubmit(f) == Blocked(TimeMessage)
  {
    Text.StrLessIrreflexive(f.startTime);
  }

  /** What submitting the form does: on rejection nothing is sent and the store is
      untouched; otherwise `addWork` runs and, because it swallows its own failure,
      the form shows its success toast in every case. */
  datatype SubmitEffect = SubmitEffect(store: WorkState, sent: Option<WorkRequest>, toast: string)

  function Submit(st: WorkState, f: AddWorkForm, resp: Response<Work>): (e: SubmitEffect)
    ensures HandleSubmit(f).Blocked? ==> e == SubmitEffect(st, None, HandleSubmit(f).message)
    ensures HandleSubmit(f).Submitted? ==> e.toast == "Work added successfully!" && e.sent.Some?
    ensures HandleSubmit(f).Submitted? && resp.Ok? ==> e.store.works == st.works + [resp.body]
    ensures HandleSubmit(f).Submitted? && resp.Failed? ==> e.store.works == st.works
  {
    match HandleSubmit(f)
    case Blocked(m) => SubmitEffect(st, None, m)
    case Submitted(p) =>
      var step := AddWork(st, p, resp);
      SubmitEffect(step.state, Some(step.request), "Work added successfully!")
  }

  /** A submitted form reaches the server with exactly the selected ids, in order,
      and with its own head count: the store's default for a missing count never
      applies to this form, since the form already rejects a missing one. */
  lemma SubmittedPayloadRoundTrip(st: WorkState, f: AddWorkForm, resp: Response<Work>)
    requires forall i :: 0 <= i < |f.selected| ==> f.selected[i] != ""
    requires HandleSubmit(f).Submitted?
    ensures Submit(st, f, resp).sent.value.PostWork?
    ensures Submit(st, f, resp).sent.value.payload.assignedTo == AsIdList(f.selected)
    ensures Submit(st, f, resp).sent.value.payload.totalMembers == f.totalMembers
  {
    NormalizeUserRefs(f.selected);
  }

}

=== FILE: base.dfy ===
/** Shared vocabulary of the dashboard model: optional values, the outcome of one
    HTTP request, and what an asynchronous store operation hands back to its caller. */
module Base {

  /** A value that may be absent: JavaScript `undefined` or `null`, or a number that
      failed to parse (`NaN`). */
  datatype Option<T> = None | Some(value: T) {

    /** The wrapped value, or `default` when absent (JavaScript `x ?? default`). */
    function GetOr(default: T): T {
      match this
      case Some(v) => v
      case None => default
    }
  }

  /** A string is truthy in JavaScript when it is present and not empty. */
  predicate TruthyText(s: Option<string>) {
    s.Some? && s.value != ""
  }

  /** A number is truthy in JavaScript when it is present (not `NaN`) and not zero. */
  predicate TruthyNumber(n: Option<int>) {
    n.Some? && n.value != 0
  }

  /** What one HTTP request came back with: the response body, or a failure that may
      carry the server's `message` field. */
  datatype Response<T> = Ok(body: T) | Failed(message: Option<string>)

  /** Whether an awaited store call resolved or rejected (was rethrown to the caller). */
  datatype Outcome<T> = Resolved(value: T) | Rejected(message: Option<string>)
}

=== FILE: create_user.dfy ===
/** The create-user form: its validation, the email pattern it applies, and what a
    submission does to the form and the session. */
module CreateUser {
  import opened Base
  import Seqs
  import Text
  import opened UserContext

  /** A character the email pattern's `[^\s@]` class accepts. */
  predicate EmailChar(c: char) {
    !Text.IsSpace(c) && c != '@'
  }

  /** A non-empty run of `[^\s@]`. */
  predicate EmailSegment(s: string) {
    |s| > 0 && forall k :: 0 <= k < |s| ==> EmailChar(s[k])
  }

  /** `/^[^\s@]+@[^\s@]+\.[^\s@]+$/` matches `e` with its '@' at `i` and its '.' at `j`. */
  predicate SplitsAt(e: string, i: int, j: int) {
    && 0 <= i < j < |e| && e[i] == '@' && e[j] == '.'
    && EmailSegment(e[..i]) && EmailSegment(e[i + 1..j]) && EmailSegment(e[j + 1..])
  }

  /** `emailRegex.test(e)`. */
  predicate MatchesEmailRegex(e: string) {
    exists i, j | 0 <= i < j < |e| :: SplitsAt(e, i, j)
  }

  predicate IsAt(c: char) {
    c == '@'
  }

  /** The position of the first '@', or `|e|` when there is none. */
  function AtIndex(e: string): (k: nat)
    ensures k <= |e|
    ensures forall i :: 0 <= i < k ==> e[i] != '@'
    ensures k < |e| ==> e[k] == '@'
  {
    if e == [] then 0 else if e[0] == '@' then 0 else 1 + AtIndex(e[1..])
  }

  /** A dot that is neither the first nor the last character. */
  predicate HasInnerDot(d: string) {
    exists j | 0 < j < |d| - 1 :: d[j] == '.'
  }

  /** An address in words: no white space, exactly one '@' with something before it,
      and after it a domain holding a dot that is neither its first nor its last
      character. */
  predicate WellFormedEmail(e: string) {
    && Text.NoSpace(e) && Seqs.Count(e, IsAt) == 1
    && 0 < AtIndex(e) < |e| && HasInnerDot(e[AtIndex(e) + 1..])
  }

  /** The '@' at `i` is counted once, between the counts of both sides. */
  lemma CountAround(e: string, i: int)
    requires 0 <= i < |e| && e[i] == '@'
    ensures Seqs.Count(e, IsAt) == Seqs.Count(e[..i], IsAt) + 1 + Seqs.Count(e[i + 1..], IsAt)
  {
    assert e == e[..i] + e[i..];
    Seqs.FilterConcat(e[..i], e[i..], IsAt);
    assert e[i..][1..] == e[i + 1..];
  }

  /** The pattern accepts exactly the addresses described in words. */
  lemma EmailRuleInWords(e: string)
    ensures MatchesEmailRegex(e) <==> WellFormedEmail(e)
  {
    if MatchesEmailRegex(e) {
      var i, j :| 0 <= i < j < |e| && SplitsAt(e, i, j);
      forall k | 0 <= k < |e| && k != i && k != j
        ensures EmailChar(e[k])
      {
        if k < i {
          assert e[..i][k] == e[k];
        } else if k < j {
          assert e[i + 1..j][k - i - 1] == e[k];
        } else {
          assert e[j + 1..][k - j - 1] == e[k];
        }
      }
      assert AtIndex(e) == i;
      CountAround(e, i);
      Seqs.CountZero(e[..i], IsAt);
      Seqs.CountZero(e[i + 1..], IsAt);
      var d := e[i + 1..];
      assert d[j - i - 1] == '.';
    }
    if WellFormedEmail(e) {
      var i := AtIndex(e);
      var d := e[i + 1..];
      var jd :| 0 < jd < |d| - 1 && d[jd] == '.';
      var j := i + 1 + jd;
      CountAround(e, i);
      Seqs.CountZero(e[..i], IsAt);
      Seqs.CountZero(d, IsAt);
      assert forall k :: i < k < |e| ==> e[k] == d[k - i - 1];
      assert SplitsAt(e, i, j);
    }
  }

  /** The form's fields; the role select starts at "staff". */
  datatype UserForm = UserForm(name: string, email: string, password: string, role: string)

  const EmptyForm := UserForm("", "", "", "staff")

  const NameRequired := "Name is required."
  const EmailRequired := "Email is required."
  const EmailInvalid := "Invalid email address."
  const PasswordRequired := "Password is required."
  const PasswordShort := "Password must be at least 6 characters."
  const RoleInvalid := "Invalid role selected."

  predicate AllowedRole(role: string) {
    role == "admin" || role == "staff"
  }

  /** `validateForm`: the first failing rule's message, in the form's order, or nothing.
      The blank checks trim, while the pattern and the length see the raw text. */
  function ValidateForm(f: UserForm): (r: Option<string>)
    ensures r == Some(NameRequired) <==> Text.IsBlank(f.name)
    ensures r == Some(EmailRequired) <==> !Text.IsBlank(f.name) && Text.IsBlank(f.email)
    ensures r == Some(EmailInvalid) <==>
      !Text.IsBlank(f.name) && !Text.IsBlank(f.email) && !WellFormedEmail(f.email)
    ensures r == Some(PasswordRequired) <==>
      !Text.IsBlank(f.name) && WellFormedEmail(f.email) && Text.IsBlank(f.password)
    ensures r == Some(PasswordShort) <==>
      !Text.IsBlank(f.name) && WellFormedEmail(f.email) && !Text.IsBlank(f.password) && |f.password| < 6
    ensures r == Some(RoleInvalid) <==>
      !Text.IsBlank(f.name) && WellFormedEmail(f.email) && !Text.IsBlank(f.password) && |f.password| >= 6
      && !AllowedRole(f.role)
    ensures r.None? <==>
      !Text.IsBlank(f.name) && WellFormedEmail(f.email) && !Text.IsBlank(f.password) && |f.password| >= 6
      && AllowedRole(f.role)
  {
    EmailRuleInWords(f.email);
    BlankEmailIsMalformed(f.email);
    if Text.IsBlank(f.name) then Some(NameRequired)
    else if Text.IsBlank(f.email) then Some(EmailRequired)
    else if !MatchesEmailRegex(f.email) then Some(EmailInvalid)
    else if Text.IsBlank(f.password) then Some(PasswordRequired)
    else if |f.password| < 6 then Some(PasswordShort)
    else if !AllowedRole(f.role) then Some(RoleInvalid)
    else None
  }

  /** A well-formed address is never blank. */
  lemma BlankEmailIsMalformed(e: string)
    ensures WellFormedEmail(e) ==> !Text.IsBlank(e)
  {
    if WellFormedEmail(e) {
      Text.BlankIffAllSpace(e);
      assert !Text.IsSpace(e[0]);
    }
  }

  /** The length rule counts white space: six characters of which two are spaces pass. */
  lemma PaddedPasswordPasses(f: UserForm)
    requires f == UserForm("Ann", "a@b.co", "  abcd", "staff")
    ensures ValidateForm(f).None?
  {
    SampleEmailWellFormed(f.email);
    BlankAfterNonSpace(f.password, 2);
    BlankAfterNonSpace(f.name, 0);
    PassingForm(f);
  }

  lemma SampleEmailWellFormed(e: string)
    requires e == "a@b.co"
    ensures WellFormedEmail(e)
  {
    assert e[..1] == "a" && e[2..3] == "b" && e[4..] == "co";
    assert SplitsAt(e, 1, 3);
    EmailRuleInWords(e);
  }

  /** A form that meets every rule passes. */
  lemma PassingForm(f: UserForm)
    requires !Text.IsBlank(f.name) && WellFormedEmail(f.email) && AllowedRole(f.role)
    requires !Text.IsBlank(f.password) && |f.password| >= 6
    ensures ValidateForm(f).None?
  {
  }

  /** A string with a character outside white space is not blank. */
  lemma BlankAfterNonSpace(s: string, k: nat)
    requires k < |s| && !Text.IsSpace(s[k])
    ensures !Text.IsBlank(s)
  {
    Text.BlankIffAllSpace(s);
  }

  /** What the form shows: its fields, an error and a success message. */
  datatype FormView = FormView(form: UserForm, error: string, success: string)

  /** A submission's outcome: the form, the session, and the user data sent, if any. */
  datatype CreateEffect = CreateEffect(view: FormView, session: Session, sent: Option<UserForm>)

  const CreatedMessage := "User created successfully!"
  const CreateFailed := "Failed to create user."

  /** `handleSubmit`: an invalid form shows its message and sends nothing; otherwise
      the data goes to `createUser` with the role lower-cased, and the form is reset
      with a success message, or kept with the server's message or a fallback. */
  function HandleSubmit(v: FormView, s: Session, resp: Response<User>): (e: CreateEffect)
    ensures ValidateForm(v.form).Some? ==>
      e == CreateEffect(FormView(v.form, ValidateForm(v.form).value, ""), s, None)
    ensures ValidateForm(v.form).None? ==> e.sent.Some?
    ensures ValidateForm(v.form).None? && resp.Ok? ==>
      e.view == FormView(EmptyForm, "", CreatedMessage) && e.session.allUsers == s.allUsers + [resp.body]
    ensures ValidateForm(v.form).None? && resp.Failed? ==>
      && e.session == s && e.view.form == v.form && e.view.success == ""
      && e.view.error == (if TruthyText(resp.message) then resp.message.value else CreateFailed)
    ensures e.view.error == "" || e.view.success == ""
  {
    match ValidateForm(v.form)
    case Some(m) => CreateEffect(FormView(v.form, m, ""), s, None)
    case None =>
      var sent := v.form.(role := Text.ToLower(v.form.role));
      var step := CreateUser(s, resp);
      match step.result
      case Resolved(_) => CreateEffect(FormView(EmptyForm, "", CreatedMessage), step.session, Some(sent))
      case Rejected(m) =>
        CreateEffect(FormView(v.form, if TruthyText(m) then m.value else CreateFailed, ""), step.session, Some(sent))
  }

  /** A success resets the form, so pressing the button again before the form closes
      sends nothing: the empty name is caught first and the session keeps the one new
      user. */
  lemma ResubmitAfterSuccessBlocked(v: FormView, s: Session, resp: Response<User>, resp2: Response<User>)
    requires ValidateForm(v.form).None? && resp.Ok?
    ensures var e := HandleSubmit(v, s, resp);
      HandleSubmit(e.view, e.session, resp2) ==
        CreateEffect(FormView(EmptyForm, NameRequired, ""), e.session, None)
  {
  }

  /** Lower-casing changes nothing on a form that passed: the server receives the
      fields exactly as typed, with a role that is "admin" or "staff". */
  lemma SentAsTyped(v: FormView, s: Session, resp: Response<User>)
    requires ValidateForm(v.form).None?
    ensures HandleSubmit(v, s, resp).sent == Some(v.form)
    ensures AllowedRole(HandleSubmit(v, s, resp).sent.value.role)
  {
    assert Text.ToLower(v.form.role) == v.form.role;
  }
}

=== FILE: dashboard.dfy ===
/** The dashboard page: which view the active sidebar label renders. */
module Dashboard {
  import opened Base
  import opened DashboardSidebar

  datatype View = HomeView | WorksView | UsersView | AccessDenied | SettingsView

  /** The label the page opens on. */
  const InitialActive := "Dashboard"

  /** `renderContent` as written: "Works" and "User Management" have their own cases,
      and every other label, "Settings" included, falls to the home view. */
  function RenderContent(active: string, role: Option<string>): (v: View)
    ensures v != SettingsView
    ensures v == WorksView <==> active == "Works"
    ensures v == UsersView <==> active == "User Management" && role == Some("admin")
    ensures v == AccessDenied <==> active == "User Management" && role != Some("admin")
    ensures v == HomeView <==> active != "Works" && active != "User Management"
  {
    if active == "Works" then WorksView
    else if active == "User Management" then (if role != Some("admin") then AccessDenied else UsersView)
    else HomeView
  }

  /** The page opens on the home view, whoever is logged in. */
  lemma OpensOnHome(role: Option<string>)
    ensures RenderContent(InitialActive, role) == HomeView
    ensures RenderContentWithSettings(InitialActive, role) == HomeView
  {
  }

  /** The Settings entry shows the home view, the same as the Dashboard entry. */
  lemma SettingsShowsHome(role: Option<string>)
    ensures RenderContent("Settings", role) == HomeView
    ensures RenderContent("Settings", role) == RenderContent("Dashboard", role)
  {
  }

  /** `renderContent` with the case the Settings entry evidently calls for. */
  function RenderContentWithSettings(active: string, role: Option<string>): (v: View)
    ensures v == SettingsView <==> active == "Settings"
    ensures active != "Settings" ==> v == RenderContent(active, role)
  {
    if active == "Settings" then SettingsView else RenderContent(active, role)
  }

  /** With the Settings case, every entry a user can navigate to renders its own view. */
  lemma EntriesRenderDistinctViews(role: Option<string>, i: nat, j: nat)
    requires i < j < |MenuItems(role)| - 1
    ensures RenderContentWithSettings(MenuItems(role)[i].caption, role)
         != RenderContentWithSettings(MenuItems(role)[j].caption, role)
  {
    var items := MenuItems(role);
    if role == Some("admin") {
      assert items == [MenuEntry("Dashboard", false), MenuEntry("Works", false),
                       MenuEntry("User Management", false), MenuEntry("Settings", false),
                       MenuEntry("Logout", true)];
    } else {
      assert items == [MenuEntry("Dashboard", false), MenuEntry("Works", false),
                       MenuEntry("Settings", false), MenuEntry("Logout", true)];
    }
  }

  /** Every entry a user sees, other than Logout, opens something other than the
      access-denied notice. */
  lemma EntriesNeverDenied(role: Option<string>, i: nat)
    requires i < |MenuItems(role)| - 1
    ensures RenderContentWithSettings(MenuItems(role)[i].caption, role) != AccessDenied
  {
    var items := MenuItems(role);
    if items[i].caption == "User Management" {
      assert role == Some("admin");
    }
  }

  /** The user table is gated on the exact role "admin": a superadmin neither sees the
      entry nor gets past the gate. */
  lemma SuperadminNeverSeesUsers(active: string)
    ensures RenderContent(active, Some("superadmin")) != UsersView
    ensures forall i :: 0 <= i < |MenuItems(Some("superadmin"))| ==> MenuItems(Some("superadmin"))[i].caption != "User Management"
  {
  }
}

=== FILE: dashboard_home.dfy ===
/** The dashboard's home view: the summary counts, the five latest work orders and
    the names shown for each order's assignees. */
module DashboardHome {
  import opened Base
  import Seqs
  import Text
  import UserContext
  import UserManagement
  import opened WorkContext

  predicate IsStaff(u: UserContext.User) {
    Text.ToLower(u.role) == "staff"
  }

  /** The staff card: users whose lower-cased role is "staff". */
  function StaffCount(users: seq<UserContext.User>): (n: nat)
    ensures n == Seqs.Count(users, IsStaff)
    ensures n <= |users|
    ensures n == 0 <==> forall i :: 0 <= i < |users| ==> !IsStaff(users[i])
  {
    Seqs.CountZero(users, IsStaff);
    Seqs.Count(users, IsStaff)
  }

  /** Counting user by user: no users count 0, and a further user adds one exactly when
      their lower-cased role is "staff". */
  lemma StaffCountCons(u: UserContext.User, us: seq<UserContext.User>)
    ensures StaffCount([]) == 0
    ensures StaffCount([u] + us) == (if IsStaff(u) then 1 else 0) + StaffCount(us)
  {
  }

  /** The home view and the user table's Staff card count the same users: hiding
      superadmins from the table never hides a staff member. */
  lemma StaffCardsAgree(all: seq<UserContext.User>)
    ensures StaffCount(all) == UserManagement.RoleCount(UserManagement.VisibleUsers(all), "staff")
  {
    var notSuper := (u: UserContext.User) => u.role != "superadmin";
    var staff := (u: UserContext.User) => Text.ToLower(u.role) == "staff";
    var both := (u: UserContext.User) => notSuper(u) && staff(u);
    Seqs.FilterFilter(all, notSuper, staff, both);
    Seqs.FilterCongruent(all, IsStaff, both);
  }

  /** A work order counted as completed: status "done" or "completed", in any case. */
  predicate IsCompleted(w: Work) {
    Text.ToLower(w.status) == "done" || Text.ToLower(w.status) == "completed"
  }

  predicate IsOpen(w: Work) {
    !IsCompleted(w)
  }

  datatype WorkSummary = WorkSummary(total: nat, completed: nat, pending: int)

  /** The total, completed and pending cards. */
  function Summarize(works: seq<Work>): (s: WorkSummary)
    ensures s.total == |works| && s.completed <= s.total
    ensures s.completed == Seqs.Count(works, IsCompleted)
    ensures s.pending == Seqs.Count(works, IsOpen)
    ensures s.completed + s.pending == s.total
  {
    Seqs.FilterPartition(works, IsCompleted, IsOpen);
    var done := Seqs.Count(works, IsCompleted);
    WorkSummary(|works|, done, |works| - done)
  }

  /** Newest first. */
  predicate SortedDesc(s: seq<Work>) {
    forall i, j :: 0 <= i < j < |s| ==> s[i].createdAt >= s[j].createdAt
  }

  /** `x` placed before the first element that is not newer than it. */
  function InsertDesc(x: Work, s: seq<Work>): (r: seq<Work>)
    requires SortedDesc(s)
    ensures SortedDesc(r)
    ensures multiset(r) == multiset(s) + multiset{x}
    ensures |r| == |s| + 1
    ensures forall k :: 0 <= k < |r| ==> r[k] == x || r[k] in s
  {
    if s == [] then [x]
    else if s[0].createdAt <= x.createdAt then [x] + s
    else
      var t := InsertDesc(x, s[1..]);
      InsertBehindHead(x, s, t);
      [s[0]] + t
  }

  /** The recursive step of `InsertDesc`: when the head is newer than `x`, the head
      followed by `x` inserted into the tail is sorted and holds exactly `s` and `x`. */
  lemma InsertBehindHead(x: Work, s: seq<Work>, t: seq<Work>)
    requires SortedDesc(s) && s != [] && s[0].createdAt > x.createdAt
    requires SortedDesc(t) && multiset(t) == multiset(s[1..]) + multiset{x}
    ensures SortedDesc([s[0]] + t)
    ensures multiset([s[0]] + t) == multiset(s) + multiset{x}
    ensures forall k :: 0 <= k < |[s[0]] + t| ==> ([s[0]] + t)[k] == x || ([s[0]] + t)[k] in s
  {
    assert s == [s[0]] + s[1..];
    forall k | 0 <= k < |t|
      ensures t[k] == x || t[k] in s[1..]
    {
      assert t[k] in multiset(t);
    }
    if t != [] {
      assert t[0].createdAt <= s[0].createdAt;
    }
  }

  /** The copy sorted newest first, by insertion, so that equal timestamps keep their
      original order as the stable `Array.prototype.sort` does. */
  function SortDesc(s: seq<Work>): (r: seq<Work>)
    ensures SortedDesc(r)
    ensures multiset(r) == multiset(s)
    ensures |r| == |s|
  {
    if s == [] then []
    else
      assert s == [s[0]] + s[1..];
      InsertDesc(s[0], SortDesc(s[1..]))
  }

  function Min(a: int, b: int): int {
    if a <= b then a else b
  }

  /** `latestWorks`: the five newest work orders, newest first; no work order left
      out is newer than one shown. */
  function LatestWorks(works: seq<Work>): (r: seq<Work>)
    ensures |r| == Min(5, |works|)
    ensures SortedDesc(r)
    ensures multiset(r) <= multiset(works)
    ensures forall w :: w in multiset(works) - multiset(r) ==>
              forall i :: 0 <= i < |r| ==> w.createdAt <= r[i].createdAt
    ensures |r| > 0 ==> forall k :: 0 <= k < |works| ==> works[k].createdAt <= r[0].createdAt
  {
    var s := SortDesc(works);
    var n := Min(5, |works|);
    var r := s[..n];
    LatestProperties(works, s, n);
    r
  }

  lemma LatestProperties(works: seq<Work>, s: seq<Work>, n: nat)
    requires SortedDesc(s) && multiset(s) == multiset(works) && n <= |s|
    ensures multiset(s[..n]) <= multiset(works)
    ensures forall w :: w in multiset(works) - multiset(s[..n]) ==>
              forall i :: 0 <= i < n ==> w.createdAt <= s[i].createdAt
    ensures n > 0 ==> forall k :: 0 <= k < |works| ==> works[k].createdAt <= s[0].createdAt
  {
    assert s == s[..n] + s[n..];
    assert multiset(s) == multiset(s[..n]) + multiset(s[n..]);
    forall w | w in multiset(works) - multiset(s[..n])
      ensures forall i :: 0 <= i < n ==> w.createdAt <= s[i].createdAt
    {
      assert w in multiset(s[n..]);
      LeftOutNotNewer(s, n, w);
    }
    if n > 0 {
      forall k | 0 <= k < |works|
        ensures works[k].createdAt <= s[0].createdAt
      {
        assert works[k] in multiset(works);
        NewestFirst(s, works[k]);
      }
    }
  }

  /** In a list sorted newest first, what follows position `n` is no newer than
      anything before it. */
  lemma LeftOutNotNewer(s: seq<Work>, n: nat, w: Work)
    requires SortedDesc(s) && n <= |s| && w in multiset(s[n..])
    ensures forall i :: 0 <= i < n ==> w.createdAt <= s[i].createdAt
  {
    var m :| 0 <= m < |s[n..]| && s[n..][m] == w;
    assert s[n + m] == w;
  }

  /** The head of a list sorted newest first is its newest element. */
  lemma NewestFirst(s: seq<Work>, x: Work)
    requires SortedDesc(s) && x in multiset(s)
    ensures x.createdAt <= s[0].createdAt
  {
    var m :| 0 <= m < |s| && s[m] == x;
  }

  /** With five work orders or fewer, every one of them is listed. */
  lemma FewWorksAllListed(works: seq<Work>)
    requires |works| <= 5
    ensures multiset(LatestWorks(works)) == multiset(works)
  {
    assert SortDesc(works)[..|works|] == SortDesc(works);
  }

  /** The name shown for one assignee: the user's name, else the entry's own name,
      else "Unnamed". */
  function AssigneeName(a: Assignment): (n: string)
    ensures n != ""
    ensures a.user.Some? && TruthyText(a.user.value.name) ==> n == a.user.value.name.value
    ensures !(a.user.Some? && TruthyText(a.user.value.name)) && TruthyText(a.name) ==> n == a.name.value
    ensures !(a.user.Some? && TruthyText(a.user.value.name)) && !TruthyText(a.name) ==> n == "Unnamed"
  {
    if a.user.Some? && TruthyText(a.user.value.name) then a.user.value.name.value
    else if TruthyText(a.name) then a.name.value
    else "Unnamed"
  }

  /** `Array.prototype.join`. */
  function Join(parts: seq<string>, sep: string): string {
    if |parts| == 0 then ""
    else if |parts| == 1 then parts[0]
    else parts[0] + sep + Join(parts[1..], sep)
  }

  /** Every part can be found in the joined text. */
  lemma {:induction false} JoinContainsEach(parts: seq<string>, sep: string, i: nat)
    requires i < |parts|
    ensures Text.Contains(Join(parts, sep), parts[i])
  {
    if |parts| == 1 {
      Text.ContainsSelf(parts[0]);
    } else if i == 0 {
      var j := Join(parts, sep);
      assert j[..|parts[0]|] == parts[0];
      assert Text.OccursAt(j, parts[0], 0);
    } else {
      JoinContainsEach(parts[1..], sep, i - 1);
      var rest := Join(parts[1..], sep);
      var k :| 0 <= k <= |rest| && Text.OccursAt(rest, parts[i], k);
      var pre := parts[0] + sep;
      assert Join(parts, sep) == pre + rest;
      assert (pre + rest)[|pre| + k..|pre| + k + |parts[i]|] == rest[k..k + |parts[i]|];
      assert Text.OccursAt(Join(parts, sep), parts[i], |pre| + k);
    }
  }

  /** The assignees cell: the names joined by ", ", or "Not assigned". */
  function AssignedNames(w: Work): (r: string)
    ensures w.assignedTo.None? || |w.assignedTo.value| == 0 ==> r == "Not assigned"
    ensures w.assignedTo.Some? && |w.assignedTo.value| > 0 ==>
      forall i :: 0 <= i < |w.assignedTo.value| ==> Text.Contains(r, AssigneeName(w.assignedTo.value[i]))
  {
    if w.assignedTo.Some? && |w.assignedTo.value| > 0 then
      var names := Seqs.Map(w.assignedTo.value, AssigneeName);
      var r := Join(names, ", ");
      assert forall i :: 0 <= i < |names| ==> Text.Contains(r, names[i]) by {
        forall i | 0 <= i < |names| ensures Text.Contains(r, names[i]) {
          JoinContainsEach(names, ", ", i);
        }
      }
      r
    else "Not assigned"
  }
}

=== FILE: dashboard_sidebar.dfy ===
/** The sidebar: the entries shown for a role and what clicking one does. */
module DashboardSidebar {
  import opened Base
  import opened UserContext

  /** An entry: its caption, and whether clicking it logs out instead of navigating. */
  datatype MenuEntry = MenuEntry(caption: string, logsOut: bool)

  /** `user?.role`. */
  function RoleOf(s: Session): Option<string> {
    if s.user.Some? then Some(s.user.value.role) else None
  }

  /** `menuItems`: Dashboard and Works, then User Management only for the role
      "admin", then Settings and Logout, which alone has an action. */
  function MenuItems(role: Option<string>): (items: seq<MenuEntry>)
    ensures |items| == (if role == Some("admin") then 5 else 4)
    ensures items[0].caption == "Dashboard" && items[1].caption == "Works"
    ensures items[|items| - 2].caption == "Settings" && items[|items| - 1] == MenuEntry("Logout", true)
    ensures forall i :: 0 <= i < |items| - 1 ==> !items[i].logsOut
    ensures (exists i :: 0 <= i < |items| && items[i].caption == "User Management") <==> role == Some("admin")
    ensures forall i, j :: 0 <= i < j < |items| ==> items[i].caption != items[j].caption
  {
    if role == Some("admin") then
      var items := [MenuEntry("Dashboard", false), MenuEntry("Works", false), MenuEntry("User Management", false),
                    MenuEntry("Settings", false), MenuEntry("Logout", true)];
      assert items[2].caption == "User Management";
      items
    else
      [MenuEntry("Dashboard", false), MenuEntry("Works", false),
       MenuEntry("Settings", false), MenuEntry("Logout", true)]
  }

  /** The active label and whether the mobile sidebar is open. */
  datatype Nav = Nav(active: string, open: bool)

  datatype ClickEffect = ClickEffect(nav: Nav, session: Session)

  /** A click: Logout runs `logoutUser` and leaves the navigation as it was; any other
      entry becomes the active one and closes the sidebar. */
  function Click(n: Nav, s: Session, item: MenuEntry): (e: ClickEffect)
    ensures item.logsOut ==> e.nav == n && e.session.user.None?
    ensures !item.logsOut ==> e.nav == Nav(item.caption, false) && e.session == s
  {
    if item.logsOut then ClickEffect(n, Logout(s)) else ClickEffect(Nav(item.caption, false), s)
  }

  /** Navigating never leaves the menu: after clicking an entry other than Logout, the
      active label is that of an entry the same user sees. */
  lemma ClickStaysOnMenu(n: Nav, s: Session, i: nat)
    requires i < |MenuItems(RoleOf(s))| - 1
    ensures var e := Click(n, s, MenuItems(RoleOf(s))[i]);
            exists j :: 0 <= j < |MenuItems(RoleOf(e.session))| && MenuItems(RoleOf(e.session))[j].caption == e.nav.active
  {
    var e := Click(n, s, MenuItems(RoleOf(s))[i]);
    assert MenuItems(RoleOf(e.session))[i].caption == e.nav.active;
  }
}

=== FILE: menu.dfy ===
/** The menu page: the category filter, the client-side page of twenty items, the
    page buttons, the category bar and the add and delete category handlers. */
module Menu {
  import opened Base
  import Seqs
  import Text
  import opened MenuContext

  const ItemsPerPage := 20
  const AllCategory := "All"

  /** `filteredItems`: every loaded item under "All", else those of the category. */
  function FilteredItems(items: seq<MenuItem>, active: string): (r: seq<MenuItem>)
    ensures active == AllCategory ==> r == items
    ensures active != AllCategory ==> forall i :: 0 <= i < |r| ==> r[i].category == active
    ensures forall i :: 0 <= i < |items| && items[i].category == active ==> items[i] in r
    ensures Seqs.IsSubsequence(r, items)
  {
    if active == AllCategory then
      Seqs.SubsequenceReflexive(items);
      items
    else Seqs.Filter(items, (item: MenuItem) => item.category == active)
  }

  /** `paginatedItems`: `filteredItems.slice((page - 1) * 20, page * 20)`. */
  function PaginatedItems(items: seq<MenuItem>, active: string, page: int): (r: seq<MenuItem>)
    ensures |r| <= ItemsPerPage
    ensures page >= 1 ==>
      var f := FilteredItems(items, active);
      var lo := (page - 1) * ItemsPerPage;
      r == (if lo < |f| then f[lo..if page * ItemsPerPage < |f| then page * ItemsPerPage else |f|] else [])
  {
    Seqs.Slice(FilteredItems(items, active), (page - 1) * ItemsPerPage, page * ItemsPerPage)
  }

  /** `Math.ceil(filteredItems.length / 20)`. */
  function TotalPages(items: seq<MenuItem>, active: string): (t: nat)
    ensures (t - 1) * ItemsPerPage < |FilteredItems(items, active)| <= t * ItemsPerPage || (t == 0 && |FilteredItems(items, active)| == 0)
  {
    (|FilteredItems(items, active)| + ItemsPerPage - 1) / ItemsPerPage
  }

  /** Every filtered item is on exactly the page its position says, within the page
      count, when the loaded list is paged from page 1. */
  lemma ItemOnItsPage(items: seq<MenuItem>, active: string, i: nat)
    requires i < |FilteredItems(items, active)|
    ensures 1 <= i / ItemsPerPage + 1 <= TotalPages(items, active)
    ensures PaginatedItems(items, active, i / ItemsPerPage + 1)[i % ItemsPerPage] == FilteredItems(items, active)[i]
  {
    var f := FilteredItems(items, active);
    var p := i / ItemsPerPage + 1;
    assert (p - 1) * ItemsPerPage + i % ItemsPerPage == i;
  }

  /** Past the last page nothing is shown. */
  lemma PagesBeyondLastEmpty(items: seq<MenuItem>, active: string, page: int)
    requires page > TotalPages(items, active) && page >= 1
    ensures PaginatedItems(items, active, page) == []
  {
  }

  /** The loaded list is already one server page, and is sliced again by the page
      number: from page 2 on, a server page of at most twenty items shows nothing. */
  lemma ServerPageSlicedAgain(items: seq<MenuItem>, active: string, page: int)
    requires |items| <= ItemsPerPage && page >= 2
    ensures PaginatedItems(items, active, page) == []
  {
  }

  /** `handlePrev`: back one page unless on page 1. */
  function HandlePrev(page: int): (r: int)
    ensures r <= page && page - r <= 1
    ensures r != page <==> page > 1
    ensures page >= 1 ==> r >= 1
  {
    if page > 1 then page - 1 else page
  }

  /** `handleNext`: forward one page while below the page count. */
  function HandleNext(page: int, total: int): (r: int)
    ensures r >= page && r - page <= 1
    ensures r != page <==> page < total
    ensures page <= total ==> r <= total
  {
    if page < total then page + 1 else page
  }

  /** A click on a page button: `true` for Next, with the page count at that moment. */
  datatype PageClick = PageClick(next: bool, total: int)

  function Walk(page: int, clicks: seq<PageClick>): int
    decreases |clicks|
  {
    if clicks == [] then page
    else
      var c := clicks[0];
      Walk(if c.next then HandleNext(page, c.total) else HandlePrev(page), clicks[1..])
  }

  /** From page 1, no sequence of clicks reaches a page below 1, and none passes the
      largest page count seen at a Next click (or the starting page). */
  lemma {:induction false} WalkStaysInRange(page: int, clicks: seq<PageClick>, bound: int)
    requires 1 <= page <= bound
    requires forall i :: 0 <= i < |clicks| ==> clicks[i].total <= bound
    ensures 1 <= Walk(page, clicks) <= bound
    decreases |clicks|
  {
    if clicks != [] {
      var c := clicks[0];
      var p := if c.next then HandleNext(page, c.total) else HandlePrev(page);
      WalkStaysInRange(p, clicks[1..], bound);
    }
  }

  /** The category buttons, which the item form's category options repeat: "All"
      first, then every category other than "All" in order. */
  function CategoryBar(categories: seq<string>): (bar: seq<string>)
    ensures |bar| >= 1 && bar[0] == AllCategory
    ensures forall i :: 1 <= i < |bar| ==> bar[i] != AllCategory && bar[i] in categories
    ensures forall i :: 0 <= i < |categories| ==> categories[i] in bar
    ensures Seqs.IsSubsequence(bar[1..], categories)
    ensures forall c :: c != AllCategory ==> multiset(bar[1..])[c] == multiset(categories)[c]
  {
    var notAll := (c: string) => c != AllCategory;
    var rest := Seqs.Filter(categories, notAll);
    var bar := [AllCategory] + rest;
    assert bar[1..] == rest;
    assert forall c :: c != AllCategory ==> multiset(rest)[c] == multiset(categories)[c] by {
      forall c | c != AllCategory ensures multiset(rest)[c] == multiset(categories)[c] {
        Seqs.FilterMultiplicity(categories, notAll, c);
      }
    }
    assert forall i :: 0 <= i < |categories| && categories[i] != AllCategory ==> categories[i] in bar[1..];
    bar
  }

  /** The effect on a change of categories: "All" when the list has it, else the first
      category, or "All" when that is missing or empty. */
  function ActiveAfterCategoriesChange(categories: seq<string>): (a: string)
    ensures AllCategory in categories ==> a == AllCategory
    ensures a == AllCategory || (|categories| > 0 && a == categories[0] && a != "")
    ensures AllCategory !in categories && |categories| > 0 && categories[0] != "" ==> a == categories[0]
    ensures AllCategory !in categories && (|categories| == 0 || categories[0] == "") ==> a == AllCategory
  {
    if AllCategory !in categories then
      (if |categories| > 0 && categories[0] != "" then categories[0] else AllCategory)
    else AllCategory
  }

  /** The category the effect selects is always one of the bar's buttons. */
  lemma ResetSelectsAButton(categories: seq<string>)
    ensures ActiveAfterCategoriesChange(categories) in CategoryBar(categories)
  {
    var bar := CategoryBar(categories);
    if |categories| > 0 {
      assert categories[0] in bar;
    }
  }

  /** What the add-category handler leaves: the store, the selected category, the
      input box and an alert, if one was raised. */
  datatype AddCategoryEffect = AddCategoryEffect(
    step: MenuStep, active: string, input: string, alert: Option<string>)

  const EnterCategoryAlert := "Please enter a category name!"
  const AddCategoryAlert := "Failed to add category"

  /** `handleAddCategory`: a blank name raises an alert and sends nothing; a created
      category becomes the selected one and clears the input; a failure raises an
      alert and keeps both. */
  function HandleAddCategory(st: MenuState, active: string, input: string, post: Response<()>)
    : (e: AddCategoryEffect)
    ensures Text.IsBlank(input) ==>
      e == AddCategoryEffect(MenuStep(st, [], Resolved(())), active, input, Some(EnterCategoryAlert))
    ensures !Text.IsBlank(input) ==> e.step.requests == [PostCategory(input)]
    ensures !Text.IsBlank(input) && post.Ok? ==>
      e.active == input && e.input == "" && e.alert.None? && e.step.state.categories == st.categories + [input]
    ensures !Text.IsBlank(input) && post.Failed? ==>
      e.active == active && e.input == input && e.alert == Some(AddCategoryAlert) && e.step.state == st
  {
    if Text.IsBlank(input) then AddCategoryEffect(MenuStep(st, [], Resolved(())), active, input, Some(EnterCategoryAlert))
    else
      var step := CreateCategory(st, input, post);
      match step.result
      case Resolved(_) => AddCategoryEffect(step, input, "", None)
      case Rejected(_) => AddCategoryEffect(step, active, input, Some(AddCategoryAlert))
  }

  /** The ids of the items a list of requests deletes, in order. */
  function DeletedIds(reqs: seq<MenuRequest>): seq<string> {
    if reqs == [] then []
    else (if reqs[0].DeleteItem? then [reqs[0].itemId] else []) + DeletedIds(reqs[1..])
  }

  lemma {:induction false} DeletedIdsConcat(a: seq<MenuRequest>, b: seq<MenuRequest>)
    ensures DeletedIds(a + b) == DeletedIds(a) + DeletedIds(b)
  {
    if a == [] {
      assert a + b == b;
    } else {
      assert (a + b)[1..] == a[1..] + b;
      DeletedIdsConcat(a[1..], b);
    }
  }

  /** One item deletion deletes exactly that item, whatever the responses. */
  lemma DeleteMenuItemDeletes(st: MenuState, itemId: string, del: Response<()>, fetch: Response<PageBody>)
    ensures DeletedIds(DeleteMenuItem(st, itemId, del, fetch).requests) == [itemId]
  {
    var reqs := DeleteMenuItem(st, itemId, del, fetch).requests;
    if del.Ok? {
      assert reqs[1..][1..] == [];
      assert DeletedIds(reqs[1..]) == [];
    } else {
      assert reqs[1..] == [];
    }
  }

  function ItemIds(items: seq<MenuItem>): seq<string> {
    Seqs.Map(items, (item: MenuItem) => item.id)
  }

  /** The item deletions of a category delete: how many were attempted, and whether the
      last attempted one failed. */
  datatype Sweep = Sweep(state: MenuState, requests: seq<MenuRequest>, attempted: nat, failed: bool)

  /** The ids of a non-empty prefix: the first target's id, then the ids of the rest's prefix. */
  lemma ItemIdsPrefix(targets: seq<MenuItem>, n: nat)
    requires n < |targets|
    ensures ItemIds(targets[..n + 1]) == [targets[0].id] + ItemIds(targets[1..][..n])
  {
    assert targets[..n + 1] == [targets[0]] + targets[1..][..n];
  }

  /** The `for ... of` loop: `deleteMenuItem` on each target in turn, stopping at the
      first that throws. The `k`-th deletion meets `dels(k)` and its refetch `fetches(k)`. */
  function DeleteEach(st: MenuState, targets: seq<MenuItem>, k: nat,
                      dels: nat -> Response<()>, fetches: nat -> Response<PageBody>): (r: Sweep)
    ensures r.attempted <= |targets|
    ensures !r.failed ==> r.attempted == |targets|
    ensures r.failed ==> r.attempted >= 1
    ensures DeletedIds(r.requests) == ItemIds(targets[..r.attempted])
    decreases |targets|
  {
    if targets == [] then Sweep(st, [], 0, false)
    else
      var step := DeleteMenuItem(st, targets[0].id, dels(k), fetches(k));
      DeleteMenuItemDeletes(st, targets[0].id, dels(k), fetches(k));
      if step.result.Rejected? then
        Sweep(step.state, step.requests, 1, true)
      else
        var rest := DeleteEach(step.state, targets[1..], k + 1, dels, fetches);
        DeletedIdsConcat(step.requests, rest.requests);
        ItemIdsPrefix(targets, rest.attempted);
        Sweep(rest.state, step.requests + rest.requests, rest.attempted + 1, rest.failed)
  }

  /** The sweep stops at the first deletion that throws: every response before it
      succeeded, and it fails exactly when some target's deletion throws. */
  lemma {:induction false} DeleteEachStopsAtFirstFailure(st: MenuState, targets: seq<MenuItem>, k: nat,
                                                         dels: nat -> Response<()>,
                                                         fetches: nat -> Response<PageBody>)
    ensures var r := DeleteEach(st, targets, k, dels, fetches);
      && (forall j: nat :: k <= j < k + r.attempted - (if r.failed then 1 else 0) ==> dels(j).Ok?)
      && (r.failed ==> dels(k + r.attempted - 1).Failed?)
      && (!r.failed <==> forall j: nat :: k <= j < k + |targets| ==> dels(j).Ok?)
    decreases |targets|
  {
    if targets != [] {
      var step := DeleteMenuItem(st, targets[0].id, dels(k), fetches(k));
      if step.result.Resolved? {
        DeleteEachStopsAtFirstFailure(step.state, targets[1..], k + 1, dels, fetches);
        var rest := DeleteEach(step.state, targets[1..], k + 1, dels, fetches);
        ResponsesAfterSuccess(dels, k, |targets|, rest.attempted, rest.failed);
      }
    }
  }

  /** The response bookkeeping of one successful deletion followed by the rest of the
      sweep: what holds of the responses from `k + 1` on holds from `k` on. */
  lemma ResponsesAfterSuccess(dels: nat -> Response<()>, k: nat, n: nat, attempted: nat, failed: bool)
    requires n >= 1 && dels(k).Ok?
    requires forall j: nat :: k + 1 <= j < k + 1 + attempted - (if failed then 1 else 0) ==> dels(j).Ok?
    requires failed ==> attempted >= 1 && dels(k + attempted).Failed?
    requires !failed <==> forall j: nat :: k + 1 <= j < k + n ==> dels(j).Ok?
    ensures forall j: nat :: k <= j < k + attempted + 1 - (if failed then 1 else 0) ==> dels(j).Ok?
    ensures !failed <==> forall j: nat :: k <= j < k + n ==> dels(j).Ok?
  {
  }

  /** What the delete-category handler leaves. */
  datatype DeleteCategoryEffect = DeleteCategoryEffect(
    state: MenuState, active: string, requests: seq<MenuRequest>, alert: bool)

  /** The items a category delete goes after: those of the category among the items
      loaded when the button was clicked. */
  function ItemsInCategory(items: seq<MenuItem>, cat: string): (r: seq<MenuItem>)
    ensures forall i :: 0 <= i < |r| ==> r[i].category == cat && r[i] in items
    ensures forall i :: 0 <= i < |items| && items[i].category == cat ==> items[i] in r
    ensures Seqs.IsSubsequence(r, items)
  {
    Seqs.Filter(items, (item: MenuItem) => item.category == cat)
  }

  /** The category's items keep every copy of an item of the category, and the page's
      category filter picks the same items. */
  lemma CategoryItemsKeepCopies(items: seq<MenuItem>, cat: string, x: MenuItem)
    ensures multiset(ItemsInCategory(items, cat))[x] == if x.category == cat then multiset(items)[x] else 0
    ensures cat != AllCategory ==> FilteredItems(items, cat) == ItemsInCategory(items, cat)
  {
    Seqs.FilterMultiplicity(items, (item: MenuItem) => item.category == cat, x);
  }

  /** `handleDeleteCategory`: after confirmation the category is deleted, then each of
      its loaded items one by one; any failure stops there with an alert, and only a
      full success moves a selection of that category back to "All". */
  function HandleDeleteCategory(st: MenuState, active: string, cat: string, confirmed: bool,
                                delCat: Response<()>, dels: nat -> Response<()>,
                                fetches: nat -> Response<PageBody>): (e: DeleteCategoryEffect)
    ensures !confirmed ==> e == DeleteCategoryEffect(st, active, [], false)
    ensures confirmed ==> |e.requests| >= 1 && e.requests[0] == DeleteCategoryReq(cat)
    ensures confirmed && delCat.Failed? ==> e == DeleteCategoryEffect(st, active, [DeleteCategoryReq(cat)], true)
    ensures confirmed && delCat.Ok? ==> cat !in e.state.categories
    ensures confirmed && delCat.Ok? ==>
      exists n :: 0 <= n <= |ItemsInCategory(st.items, cat)| &&
        DeletedIds(e.requests) == ItemIds(ItemsInCategory(st.items, cat)[..n])
    ensures confirmed && !e.alert ==> DeletedIds(e.requests) == ItemIds(ItemsInCategory(st.items, cat))
    ensures e.alert ==> e.active == active
    ensures confirmed && !e.alert ==> e.active == (if active == cat then AllCategory else active)
    ensures confirmed && delCat.Ok? ==>
      (e.alert <==> exists j: nat :: j < |ItemsInCategory(st.items, cat)| && dels(j).Failed?)
  {
    if !confirmed then DeleteCategoryEffect(st, active, [], false)
    else
      var step := DeleteCategory(st, cat, delCat);
      if step.result.Rejected? then DeleteCategoryEffect(st, active, step.requests, true)
      else
        var targets := ItemsInCategory(st.items, cat);
        var sweep := DeleteEach(step.state, targets, 0, dels, fetches);
        DeletedIdsConcat(step.requests, sweep.requests);
        assert DeletedIds(step.requests) == [];
        assert targets[..|targets|] == targets;
        DeleteEachKeepsCategories(step.state, targets, 0, dels, fetches);
        DeleteEachStopsAtFirstFailure(step.state, targets, 0, dels, fetches);
        if sweep.failed then DeleteCategoryEffect(sweep.state, active, step.requests + sweep.requests, true)
        else DeleteCategoryEffect(sweep.state, if active == cat then AllCategory else active,
                                  step.requests + sweep.requests, false)
  }

  /** Deleting items never touches the category list. */
  lemma {:induction false} DeleteEachKeepsCategories(st: MenuState, targets: seq<MenuItem>, k: nat,
                                                     dels: nat -> Response<()>, fetches: nat -> Response<PageBody>)
    ensures DeleteEach(st, targets, k, dels, fetches).state.categories == st.categories
    decreases |targets|
  {
    if targets != [] {
      var step := DeleteMenuItem(st, targets[0].id, dels(k), fetches(k));
      if step.result.Resolved? {
        DeleteEachKeepsCategories(step.state, targets[1..], k + 1, dels, fetches);
      }
    }
  }
}

=== FILE: menu_context.dfy ===
/** The menu store: the loaded page of menu items, the category names, the last
    fetch error and the server page, with the requests each operation sends. */
module MenuContext {
  import opened Base
  import Seqs
  import Text

  /** A menu item as the server returns it. Prices are whole numbers; `None` stands
      for a missing price. */
  datatype MenuItem = MenuItem(
    id: string,
    name: string,
    description: string,
    price: Option<int>,
    category: string,
    image: string)

  /** The body of an add or update request. */
  datatype ItemData = ItemData(name: string, description: string, price: Option<int>, category: string, image: string)

  /** The body of a page fetch. */
  datatype PageBody = PageBody(items: Option<seq<MenuItem>>, totalPages: Option<int>)

  /** The last fetch error: none, the server's message, or the transport's own. */
  datatype MenuError = NoError | ServerMessage(text: string) | TransportFailure

  datatype MenuState = MenuState(
    items: seq<MenuItem>,
    categories: seq<string>,
    error: MenuError,
    page: int,
    totalPages: int)

  /** The store's first state: nothing loaded, on page 1 of 1. */
  const InitialMenu := MenuState([], [], NoError, 1, 1)

  /** A request the store sends to the server. */
  datatype MenuRequest =
    | GetItems(page: int)
    | GetCategories
    | PostItem(data: ItemData)
    | PutItem(itemId: string, data: ItemData)
    | DeleteItem(itemId: string)
    | PostCategory(name: string)
    | DeleteCategoryReq(name: string)

  /** A state after an awaited operation, the requests it sent in order, and whether
      it resolved or threw. */
  datatype MenuStep = MenuStep(state: MenuState, requests: seq<MenuRequest>, result: Outcome<()>)

  const ImageRequired := "Image is required"

  /** `fetchMenuItems` for the current page: on success the items (or none) and the
      page count (1 when missing or 0) replace the old ones and the error clears; on
      failure only the error changes. */
  function FetchMenuItems(st: MenuState, resp: Response<PageBody>): (r: MenuState)
    ensures r.page == st.page && r.categories == st.categories
    ensures resp.Ok? ==> r.items == resp.body.items.GetOr([]) && r.error == NoError
    ensures resp.Ok? ==> r.totalPages != 0
    ensures resp.Ok? && !TruthyNumber(resp.body.totalPages) ==> r.totalPages == 1
    ensures resp.Ok? && TruthyNumber(resp.body.totalPages) ==> r.totalPages == resp.body.totalPages.value
    ensures resp.Failed? ==> r.items == st.items && r.totalPages == st.totalPages && r.error != NoError
    ensures resp.Failed? && TruthyText(resp.message) ==> r.error == ServerMessage(resp.message.value)
  {
    match resp
    case Ok(body) =>
      st.(items := body.items.GetOr([]),
          totalPages := if TruthyNumber(body.totalPages) then body.totalPages.value else 1,
          error := NoError)
    case Failed(m) =>
      st.(error := if TruthyText(m) then ServerMessage(m.value) else TransportFailure)
  }

  /** `fetchCategories`: the names replace the list; a failure is only logged. */
  function FetchCategories(st: MenuState, resp: Response<seq<string>>): (r: MenuState)
    ensures resp.Ok? ==> r == st.(categories := resp.body)
    ensures resp.Failed? ==> r == st
  {
    match resp
    case Ok(names) => st.(categories := names)
    case Failed(_) => st
  }

  /** `setPage` and the effect it triggers: both lists are fetched for the new page. */
  function SetPage(st: MenuState, page: int, items: Response<PageBody>, cats: Response<seq<string>>): (r: MenuStep)
    ensures r.requests == [GetItems(page), GetCategories]
    ensures r.state.page == page && r.result.Resolved?
    ensures items.Ok? ==> r.state.items == items.body.items.GetOr([])
  {
    MenuStep(FetchCategories(FetchMenuItems(st.(page := page), items), cats), [GetItems(page), GetCategories], Resolved(()))
  }

  /** A write followed by a refetch of the current page; a failed write throws before
      the refetch. */
  function WriteThenFetch(st: MenuState, write: MenuRequest, resp: Response<()>, fetch: Response<PageBody>)
    : (r: MenuStep)
    ensures resp.Failed? ==> r == MenuStep(st, [write], Rejected(resp.message))
    ensures resp.Ok? ==> r == MenuStep(FetchMenuItems(st, fetch), [write, GetItems(st.page)], Resolved(()))
  {
    match resp
    case Ok(_) => MenuStep(FetchMenuItems(st, fetch), [write, GetItems(st.page)], Resolved(()))
    case Failed(m) => MenuStep(st, [write], Rejected(m))
  }

  /** `addMenuItem`: throws before sending anything when the image is empty. */
  function AddMenuItem(st: MenuState, data: ItemData, post: Response<()>, fetch: Response<PageBody>): (r: MenuStep)
    ensures data.image == "" ==> r == MenuStep(st, [], Rejected(Some(ImageRequired)))
    ensures data.image != "" ==> |r.requests| >= 1 && r.requests[0] == PostItem(data)
    ensures r.result.Resolved? <==> data.image != "" && post.Ok?
    ensures r.result.Resolved? ==> r.requests == [PostItem(data), GetItems(st.page)]
  {
    if data.image == "" then MenuStep(st, [], Rejected(Some(ImageRequired)))
    else WriteThenFetch(st, PostItem(data), post, fetch)
  }

  /** `updateMenuItem`: the same guard, then a PUT of the item. */
  function UpdateMenuItem(st: MenuState, itemId: string, data: ItemData, put: Response<()>, fetch: Response<PageBody>)
    : (r: MenuStep)
    ensures data.image == "" ==> r == MenuStep(st, [], Rejected(Some(ImageRequired)))
    ensures data.image != "" ==> |r.requests| >= 1 && r.requests[0] == PutItem(itemId, data)
    ensures r.result.Resolved? <==> data.image != "" && put.Ok?
    ensures r.result.Resolved? ==> r.requests == [PutItem(itemId, data), GetItems(st.page)]
  {
    if data.image == "" then MenuStep(st, [], Rejected(Some(ImageRequired)))
    else WriteThenFetch(st, PutItem(itemId, data), put, fetch)
  }

  /** An add and an update of the same data differ only in the request that writes:
      both guard the image the same way and both leave the store to the refetch. */
  lemma AddAndUpdateAgree(st: MenuState, itemId: string, data: ItemData, write: Response<()>,
                          fetch: Response<PageBody>)
    ensures var a := AddMenuItem(st, data, write, fetch);
      var u := UpdateMenuItem(st, itemId, data, write, fetch);
      a.state == u.state && a.result == u.result && |a.requests| == |u.requests| &&
      (|a.requests| > 0 ==> a.requests[1..] == u.requests[1..])
  {
  }

  /** Saving the same item twice against an unchanged server leaves the store as one
      save does. */
  lemma UpdateTwiceIsOnce(st: MenuState, itemId: string, data: ItemData, fetch: Response<PageBody>)
    ensures var once := UpdateMenuItem(st, itemId, data, Ok(()), fetch);
      UpdateMenuItem(once.state, itemId, data, Ok(()), fetch).state == once.state
  {
  }

  /** `deleteMenuItem`: a DELETE of the item, then a refetch; there is no guard. */
  function DeleteMenuItem(st: MenuState, itemId: string, del: Response<()>, fetch: Response<PageBody>)
    : (r: MenuStep)
    ensures |r.requests| >= 1 && r.requests[0] == DeleteItem(itemId)
    ensures r.result.Resolved? <==> del.Ok?
    ensures r.result.Resolved? ==> r.requests == [DeleteItem(itemId), GetItems(st.page)]
    ensures del.Failed? ==> r.state == st && r.requests == [DeleteItem(itemId)]
  {
    WriteThenFetch(st, DeleteItem(itemId), del, fetch)
  }

  /** `createCategory`: a blank name is a silent no-op; otherwise the name, untrimmed,
      is appended once the server accepts it. */
  function CreateCategory(st: MenuState, name: string, post: Response<()>): (r: MenuStep)
    ensures Text.IsBlank(name) ==> r == MenuStep(st, [], Resolved(()))
    ensures !Text.IsBlank(name) ==> r.requests == [PostCategory(name)]
    ensures !Text.IsBlank(name) && post.Ok? ==> r.state == st.(categories := st.categories + [name]) && r.result.Resolved?
    ensures !Text.IsBlank(name) && post.Failed? ==> r.state == st && r.result == Rejected(post.message)
  {
    if Text.IsBlank(name) then MenuStep(st, [], Resolved(()))
    else match post
      case Ok(_) => MenuStep(st.(categories := st.categories + [name]), [PostCategory(name)], Resolved(()))
      case Failed(m) => MenuStep(st, [PostCategory(name)], Rejected(m))
  }

  /** `deleteCategory`: once the server accepts, every copy of the name leaves the list
      and the rest keep their order. */
  function DeleteCategory(st: MenuState, name: string, del: Response<()>): (r: MenuStep)
    ensures r.requests == [DeleteCategoryReq(name)]
    ensures del.Failed? ==> r.state == st && r.result == Rejected(del.message)
    ensures del.Ok? ==> r.result.Resolved? && r.state.items == st.items
    ensures del.Ok? ==> name !in r.state.categories && Seqs.IsSubsequence(r.state.categories, st.categories)
    ensures del.Ok? ==> forall c :: c in st.categories && c != name ==> c in r.state.categories
    ensures del.Ok? ==> forall c :: c != name ==> multiset(r.state.categories)[c] == multiset(st.categories)[c]
  {
    match del
    case Ok(_) =>
      var keep := (c: string) => c != name;
      var rest := Seqs.Filter(st.categories, keep);
      assert forall c :: c != name ==> multiset(rest)[c] == multiset(st.categories)[c] by {
        forall c | c != name ensures multiset(rest)[c] == multiset(st.categories)[c] {
          Seqs.FilterMultiplicity(st.categories, keep, c);
        }
      }
      MenuStep(st.(categories := rest), [DeleteCategoryReq(name)], Resolved(()))
    case Failed(m) => MenuStep(st, [DeleteCategoryReq(name)], Rejected(m))
  }

  /** Deleting a category just created restores the list it was created in. */
  lemma CreateThenDeleteCategory(st: MenuState, name: string)
    requires !Text.IsBlank(name) && name !in st.categories
    ensures DeleteCategory(CreateCategory(st, name, Ok(())).state, name, Ok(())).state == st
  {
    var keep := (c: string) => c != name;
    Seqs.FilterConcat(st.categories, [name], keep);
    Seqs.FilterKeepsAll(st.categories, keep);
    assert Seqs.Filter([name], keep) == [];
  }
}

=== FILE: menu_popup.dfy ===
/** The add and edit item form: its initial fields, its two checks and the store
    call it makes. */
module MenuPopup {
  import opened Base
  import opened MenuContext
  import Menu

  /** The form's first state: the edited item's fields, or empty ones with the
      category "All" for a new item. A falsy price or category falls back likewise. */
  function InitialForm(itemToEdit: Option<MenuItem>): (f: ItemData)
    ensures itemToEdit.None? ==> f == ItemData("", "", None, Menu.AllCategory, "")
    ensures itemToEdit.Some? ==>
      && f.name == itemToEdit.value.name && f.description == itemToEdit.value.description
      && f.image == itemToEdit.value.image
      && (TruthyNumber(itemToEdit.value.price) ==> f.price == itemToEdit.value.price)
      && (!TruthyNumber(itemToEdit.value.price) ==> f.price.None?)
      && f.category == (if itemToEdit.value.category != "" then itemToEdit.value.category else Menu.AllCategory)
  {
    match itemToEdit
    case None => ItemData("", "", None, Menu.AllCategory, "")
    case Some(item) =>
      ItemData(item.name, item.description,
               if TruthyNumber(item.price) then item.price else None,
               if item.category != "" then item.category else Menu.AllCategory,
               item.image)
  }

  /** The form's category select offers the same list as the category bar, so the
      category a form starts with is one of its options whenever the edited item's
      category is still a known one. */
  lemma InitialCategoryIsAnOption(itemToEdit: Option<MenuItem>, categories: seq<string>)
    requires itemToEdit.Some? ==> itemToEdit.value.category in categories || itemToEdit.value.category == ""
    ensures InitialForm(itemToEdit).category in Menu.CategoryBar(categories)
  {
    var bar := Menu.CategoryBar(categories);
    if itemToEdit.Some? && itemToEdit.value.category != "" {
      var k :| 0 <= k < |categories| && categories[k] == itemToEdit.value.category;
      assert categories[k] in bar;
    }
  }

  const ImageAlert := "Please upload an image first!"
  const FieldsAlert := "Fill required fields"
  const SaveAlert := "Failed to save menu item."

  /** What the submit handler leaves: the store step, an alert if one was raised, and
      whether the form closed. */
  datatype PopupEffect = PopupEffect(step: MenuStep, alert: Option<string>, closed: bool)

  /** `handleSubmit`: no image, then a missing name or a falsy price, each raise their
      alert and send nothing; otherwise the item is updated when editing and added when
      not, and the form closes on success or alerts on failure. */
  function HandleSubmit(st: MenuState, f: ItemData, itemToEdit: Option<MenuItem>,
                        write: Response<()>, fetch: Response<PageBody>): (e: PopupEffect)
    ensures f.image == "" ==> e == PopupEffect(MenuStep(st, [], Resolved(())), Some(ImageAlert), false)
    ensures f.image != "" && (f.name == "" || !TruthyNumber(f.price)) ==>
      e == PopupEffect(MenuStep(st, [], Resolved(())), Some(FieldsAlert), false)
    ensures f.image != "" && f.name != "" && TruthyNumber(f.price) ==>
      && |e.step.requests| >= 1
      && e.step.requests[0] == (if itemToEdit.Some? then PutItem(itemToEdit.value.id, f) else PostItem(f))
      && (e.closed <==> write.Ok?)
      && (e.alert.Some? <==> write.Failed?)
      && (e.alert.Some? ==> e.alert.value == SaveAlert)
  {
    if f.image == "" then PopupEffect(MenuStep(st, [], Resolved(())), Some(ImageAlert), false)
    else if f.name == "" || !TruthyNumber(f.price) then PopupEffect(MenuStep(st, [], Resolved(())), Some(FieldsAlert), false)
    else
      var step := if itemToEdit.Some? then UpdateMenuItem(st, itemToEdit.value.id, f, write, fetch)
                  else AddMenuItem(st, f, write, fetch);
      match step.result
      case Resolved(_) => PopupEffect(step, None, true)
      case Rejected(_) => PopupEffect(step, Some(SaveAlert), false)
  }

  /** Re-saving an item unchanged sends the item's own fields back under its id. */
  lemma UnchangedEditRoundTrip(st: MenuState, item: MenuItem, write: Response<()>, fetch: Response<PageBody>)
    requires item.image != "" && item.name != "" && TruthyNumber(item.price) && item.category != ""
    ensures HandleSubmit(st, InitialForm(Some(item)), Some(item), write, fetch).step.requests[0]
         == PutItem(item.id, ItemData(item.name, item.description, item.price, item.category, item.image))
  {
  }

  /** A new item's form never gets past the image check untouched. */
  lemma BlankNewFormAlerts(st: MenuState, write: Response<()>, fetch: Response<PageBody>)
    ensures HandleSubmit(st, InitialForm(None), None, write, fetch).alert == Some(ImageAlert)
    ensures HandleSubmit(st, InitialForm(None), None, write, fetch).step.requests == []
  {
  }
}

=== FILE: seqs.dfy ===
/** Generic sequence operations used by every list derivation of the dashboard:
    `Array.prototype.filter` and `map`, and the notion of an order-preserving sublist. */
module Seqs {

  /** `a` can be obtained from `b` by deleting elements: an order-preserving sublist. */
  ghost predicate IsSubsequence<T>(a: seq<T>, b: seq<T>)
    decreases |b|
  {
    if a == [] then true
    else if b == [] then false
    else (a[0] == b[0] && IsSubsequence(a[1..], b[1..])) || IsSubsequence(a, b[1..])
  }

  /** The elements of `s` that satisfy `p`, in their original order. */
  function Filter<T>(s: seq<T>, p: T -> bool): (r: seq<T>)
    ensures |r| <= |s|
    ensures forall i :: 0 <= i < |r| ==> p(r[i]) && r[i] in s
    ensures forall i :: 0 <= i < |s| && p(s[i]) ==> s[i] in r
    ensures IsSubsequence(r, s)
  {
    if s == [] then []
    else if p(s[0]) then [s[0]] + Filter(s[1..], p)
    else Filter(s[1..], p)
  }

  /** Filtering keeps every copy of a value that passes and no copy of one that fails. */
  lemma {:induction false} FilterMultiplicity<T>(s: seq<T>, p: T -> bool, x: T)
    ensures multiset(Filter(s, p))[x] == if p(x) then multiset(s)[x] else 0
  {
    if s != [] {
      FilterMultiplicity(s[1..], p, x);
      assert s == [s[0]] + s[1..];
      assert multiset(s)[x] == multiset([s[0]])[x] + multiset(s[1..])[x];
      if p(s[0]) {
        var r := Filter(s[1..], p);
        assert multiset([s[0]] + r)[x] == multiset([s[0]])[x] + multiset(r)[x];
      }
    }
  }

  /** `f` applied to every element of `s`, position by position. */
  function Map<A, B>(s: seq<A>, f: A -> B): (r: seq<B>)
    ensures |r| == |s|
    ensures forall i :: 0 <= i < |s| ==> r[i] == f(s[i])
  {
    seq(|s|, i requires 0 <= i < |s| => f(s[i]))
  }

  /** The number of elements of `s` that satisfy `p`. */
  function Count<T>(s: seq<T>, p: T -> bool): nat {
    |Filter(s, p)|
  }

  /** No element occurs twice. */
  predicate NoDuplicates<T(==)>(s: seq<T>) {
    forall i, j :: 0 <= i < j < |s| ==> s[i] != s[j]
  }

  /** Filtering keeps everything when every element passes. */
  lemma {:induction false} FilterKeepsAll<T>(s: seq<T>, p: T -> bool)
    requires forall i :: 0 <= i < |s| ==> p(s[i])
    ensures Filter(s, p) == s
  {
    if s != [] {
      FilterKeepsAll(s[1..], p);
      assert [s[0]] + s[1..] == s;
    }
  }

  /** Every element lands on exactly one side of a filter and its negation. */
  lemma {:induction false} FilterPartition<T>(s: seq<T>, p: T -> bool, q: T -> bool)
    requires forall x :: q(x) == !p(x)
    ensures |Filter(s, p)| + |Filter(s, q)| == |s|
  {
    if s != [] {
      FilterPartition(s[1..], p, q);
    }
  }

  /** Filtering by `p` and then by `q` is the same as filtering once by both. */
  lemma {:induction false} FilterFilter<T>(s: seq<T>, p: T -> bool, q: T -> bool, pq: T -> bool)
    requires forall x :: pq(x) == (p(x) && q(x))
    ensures Filter(Filter(s, p), q) == Filter(s, pq)
  {
    if s != [] {
      FilterFilter(s[1..], p, q, pq);
    }
  }

  /** A filter that drops nothing from an already-filtered list is idempotent. */
  lemma FilterIdempotent<T>(s: seq<T>, p: T -> bool)
    ensures Filter(Filter(s, p), p) == Filter(s, p)
  {
    var r := Filter(s, p);
    forall i | 0 <= i < |r|
      ensures p(r[i])
    {
      assert r[i] in r;
    }
    FilterKeepsAll(r, p);
  }

  /** Every list is a sublist of itself. */
  lemma {:induction false} SubsequenceReflexive<T>(s: seq<T>)
    ensures IsSubsequence(s, s)
  {
    if s != [] {
      SubsequenceReflexive(s[1..]);
    }
  }

  /** The sublist relation is transitive. */
  lemma {:induction false} SubsequenceTransitive<T>(a: seq<T>, b: seq<T>, c: seq<T>)
    requires IsSubsequence(a, b) && IsSubsequence(b, c)
    ensures IsSubsequence(a, c)
    decreases |c|
  {
    if a == [] {
    } else if b == [] {
    } else if c == [] {
    } else if b[0] == c[0] && IsSubsequence(b[1..], c[1..]) {
      if a[0] == b[0] && IsSubsequence(a[1..], b[1..]) {
        SubsequenceTransitive(a[1..], b[1..], c[1..]);
      } else {
        SubsequenceTransitive(a, b[1..], c[1..]);
      }
    } else {
      SubsequenceTransitive(a, b, c[1..]);
    }
  }

  /** Three pairwise exclusive filters together keep at most every element once. */
  lemma {:induction false} DisjointCountsBounded<T>(s: seq<T>, p: T -> bool, q: T -> bool, r: T -> bool)
    requires forall x :: !(p(x) && q(x)) && !(p(x) && r(x)) && !(q(x) && r(x))
    ensures Count(s, p) + Count(s, q) + Count(s, r) <= |s|
  {
    if s != [] {
      DisjointCountsBounded(s[1..], p, q, r);
    }
  }
  /** Filtering distributes over concatenation. */
  lemma {:induction false} FilterConcat<T>(a: seq<T>, b: seq<T>, p: T -> bool)
    ensures Filter(a + b, p) == Filter(a, p) + Filter(b, p)
  {
    if a == [] {
      assert a + b == b;
    } else {
      assert (a + b)[1..] == a[1..] + b;
      FilterConcat(a[1..], b, p);
    }
  }

  /** Nothing is counted exactly when no element satisfies the predicate. */
  lemma CountZero<T>(s: seq<T>, p: T -> bool)
    ensures Count(s, p) == 0 <==> forall i :: 0 <= i < |s| ==> !p(s[i])
  {
    var r := Filter(s, p);
    if |r| > 0 {
      assert p(r[0]) && r[0] in s;
    }
  }
  /** Filters by pointwise equal predicates agree. */
  lemma {:induction false} FilterCongruent<T>(s: seq<T>, p: T -> bool, q: T -> bool)
    requires forall x :: p(x) == q(x)
    ensures Filter(s, p) == Filter(s, q)
  {
    if s != [] {
      FilterCongruent(s[1..], p, q);
    }
  }
  /** A relative index of `Array.prototype.slice`: a negative index counts from the
      end, and the result is clamped to `0 .. len`. */
  function SliceIndex(i: int, len: nat): (k: nat)
    ensures k <= len
    ensures 0 <= i ==> k == (if i <= len then i else len)
  {
    if i < 0 then (if len + i < 0 then 0 else len + i)
    else if i > len then len
    else i
  }

  /** `s.slice(start, end)`. */
  function Slice<T>(s: seq<T>, start: int, end: int): (r: seq<T>)
    ensures |r| <= |s|
    ensures end == 0 ==> r == []
    ensures (0 <= start && 0 <= end) || (start < 0 && end < 0) ==>
      |r| <= if end - start < 0 then 0 else end - start
    ensures 0 <= start <= end ==> r == s[SliceIndex(start, |s|)..SliceIndex(end, |s|)]
  {
    var lo := SliceIndex(start, |s|);
    var hi := SliceIndex(end, |s|);
    if start <= end && (0 <= start || end < 0) then
      SliceIndexMonotone(start, end, |s|);
      if lo < hi then s[lo..hi] else []
    else if end < start && (0 <= end || start < 0) then
      SliceIndexMonotone(end, start, |s|);
      []
    else if lo < hi then s[lo..hi] else []
  }

  /** Clamping keeps the order of two indices of the same sign and never widens the
      gap between them. */
  lemma SliceIndexMonotone(i: int, j: int, len: nat)
    requires i <= j && (0 <= i || j < 0)
    ensures SliceIndex(i, len) <= SliceIndex(j, len)
    ensures SliceIndex(j, len) - SliceIndex(i, len) <= j - i
  {
  }
}

=== FILE: settings_section.dfy ===
/** The profile settings form: its initial fields, the update it sends and the
    message it shows afterwards. */
module SettingsSection {
  import opened Base
  import opened UserContext

  datatype SettingsForm = SettingsForm(name: string, email: string, password: string, profilePic: string)

  const Saved := "Profile updated successfully!"
  const SaveFailed := "Failed to update profile."

  /** The form's first state: the user's name, email and picture, or "" for each when
      nobody is logged in; the password always starts empty. */
  function InitialForm(user: Option<User>): (f: SettingsForm)
    ensures f.password == ""
    ensures user.None? ==> f == SettingsForm("", "", "", "")
    ensures user.Some? ==>
      f.name == user.value.name && f.email == user.value.email && f.profilePic == user.value.profilePic.GetOr("")
  {
    match user
    case None => SettingsForm("", "", "", "")
    case Some(u) => SettingsForm(u.name, u.email, "", u.profilePic.GetOr(""))
  }

  /** The update sent: every field, except a password left empty. */
  function Updates(f: SettingsForm): (u: ProfileUpdate)
    ensures u.name == f.name && u.email == f.email && u.profilePic == f.profilePic
    ensures u.password.None? <==> f.password == ""
    ensures u.password.Some? ==> u.password.value == f.password
  {
    ProfileUpdate(f.name, f.email, if f.password == "" then None else Some(f.password), f.profilePic)
  }

  /** An untouched form sends the user's own details back and no password. */
  lemma UntouchedFormSendsProfile(u: User)
    ensures Updates(InitialForm(Some(u))) == ProfileUpdate(u.name, u.email, None, u.profilePic.GetOr(""))
  {
  }

  /** A submission's outcome: the session, the message, and the update if one was sent. */
  datatype SettingsEffect = SettingsEffect(session: Session, message: string, sent: Option<ProfileUpdate>)

  /** `handleSubmit`: `updateUser` with the form's update; the success message shows
      whenever it resolves, and the failure message when it rejects. */
  function HandleSubmit(s: Session, f: SettingsForm, resp: Response<User>, fetch: Response<seq<User>>)
    : (e: SettingsEffect)
    ensures e.message == SaveFailed <==> s.user.Some? && resp.Failed?
    ensures e.message == Saved <==> !(s.user.Some? && resp.Failed?)
    ensures e.sent.Some? <==> s.user.Some?
    ensures e.sent.Some? ==> (e.sent.value.password.None? <==> f.password == "")
    ensures s.user.Some? && resp.Ok? ==> e.session.user == Some(resp.body)
    ensures s.user.None? || resp.Failed? ==> e.session == s
  {
    var step := UpdateUser(s, Updates(f), resp, fetch);
    var sent := if s.user.Some? then Some(Updates(f)) else None;
    match step.result
    case Resolved(_) => SettingsEffect(step.session, Saved, sent)
    case Rejected(_) => SettingsEffect(step.session, SaveFailed, sent)
  }

  /** With nobody logged in, nothing is sent and nothing changes, yet the form reports
      the profile as saved. */
  lemma NoUserStillReportsSaved(s: Session, f: SettingsForm, resp: Response<User>, fetch: Response<seq<User>>)
    requires s.user.None?
    ensures HandleSubmit(s, f, resp, fetch) == SettingsEffect(s, Saved, None)
  {
  }

  /** A saved profile survives a restart while the token is kept. */
  lemma SavedProfileSurvivesRestart(s: Session, f: SettingsForm, u: User, fetch: Response<seq<User>>,
                                    f2: Response<seq<User>>)
    requires s.user.Some? && StoredToken(s.storage).Some?
    ensures Restore(HandleSubmit(s, f, Ok(u), fetch).session.storage, f2).user == Some(u)
  {
  }
}

=== FILE: text.dfy ===
/** String primitives of JavaScript that the dashboard's forms and filters rely on:
    white space (the `\s` class and `String.prototype.trim`), lower-casing,
    `String.prototype.includes` and the `<` comparison of strings. */
module Text {

  /** A character of JavaScript's `\s` class, which is also exactly the set that
      `trim()` strips: ECMAScript WhiteSpace and LineTerminator code points. */
  predicate IsSpace(c: char) {
    || c == ' ' || c == '\t' || c == '\n' || c == '\U{000B}' || c == '\U{000C}' || c == '\r'
    || c == '\U{00A0}' || c == '\U{1680}' || ('\U{2000}' <= c <= '\U{200A}')
    || c == '\U{2028}' || c == '\U{2029}' || c == '\U{202F}' || c == '\U{205F}'
    || c == '\U{3000}' || c == '\U{FEFF}'
  }

  /** No character of `s` is white space. */
  predicate NoSpace(s: string) {
    forall i :: 0 <= i < |s| ==> !IsSpace(s[i])
  }

  /** Every character of `s` is white space (vacuously true of ""). */
  predicate AllSpace(s: string) {
    forall i :: 0 <= i < |s| ==> IsSpace(s[i])
  }

  /** The number of white-space characters `s` starts with. */
  function LeadingSpace(s: string): (k: nat)
    ensures k <= |s|
    ensures forall i :: 0 <= i < k ==> IsSpace(s[i])
    ensures k == |s| || !IsSpace(s[k])
  {
    if s == [] then 0
    else if IsSpace(s[0]) then 1 + LeadingSpace(s[1..])
    else 0
  }

  /** The index at which the trailing white space of `s` begins. */
  function TrailingSpaceStart(s: string): (m: nat)
    ensures m <= |s|
    ensures forall i :: m <= i < |s| ==> IsSpace(s[i])
    ensures m == 0 || !IsSpace(s[m - 1])
  {
    if s == [] then 0
    else if IsSpace(s[|s| - 1]) then TrailingSpaceStart(s[..|s| - 1])
    else |s|
  }

  /** `String.prototype.trim`: `s` without leading and trailing white space. */
  function Trim(s: string): (r: string)
    ensures r == [] || (!IsSpace(r[0]) && !IsSpace(r[|r| - 1]))
  {
    var t := s[LeadingSpace(s)..];
    t[..TrailingSpaceStart(t)]
  }

  /** `!s.trim()`: the string is empty once trimmed. */
  predicate IsBlank(s: string) {
    Trim(s) == []
  }

  /** A string is blank exactly when it consists of white space only. */
  lemma BlankIffAllSpace(s: string)
    ensures IsBlank(s) <==> AllSpace(s)
  {
    var k := LeadingSpace(s);
    var t := s[k..];
    var m := TrailingSpaceStart(t);
    if m == 0 {
      assert k == |s|;
    } else {
      assert !IsSpace(t[m - 1]);
      assert t[m - 1] == s[k + m - 1];
    }
  }

  /** Trimming keeps a contiguous stretch of the original string. */
  lemma TrimIsInfix(s: string)
    ensures exists a, b :: 0 <= a <= b <= |s| && Trim(s) == s[a..b]
  {
    var k := LeadingSpace(s);
    var m := TrailingSpaceStart(s[k..]);
    assert Trim(s) == s[k..k + m];
  }

  /** A string without white space is its own trim. */
  lemma TrimNoSpace(s: string)
    requires NoSpace(s)
    ensures Trim(s) == s
  {
    if s != [] {
      assert LeadingSpace(s) == 0;
      assert s[0..] == s;
      assert TrailingSpaceStart(s) == |s|;
    }
  }

  /** ASCII lower-casing of one character. */
  function LowerChar(c: char): char {
    if 'A' <= c <= 'Z' then (c as int + 32) as char else c
  }

  /** `String.prototype.toLowerCase`, restricted to the ASCII letters. */
  function ToLower(s: string): (r: string)
    ensures |r| == |s|
    ensures forall i :: 0 <= i < |s| ==> r[i] == LowerChar(s[i])
  {
    seq(|s|, i requires 0 <= i < |s| => LowerChar(s[i]))
  }

  /** Lower-casing twice is lower-casing once. */
  lemma ToLowerIdempotent(s: string)
    ensures ToLower(ToLower(s)) == ToLower(s)
  {
  }

  /** `needle` occurs in `hay` starting at index `i`. */
  predicate OccursAt(hay: string, needle: string, i: int) {
    0 <= i && i + |needle| <= |hay| && hay[i..i + |needle|] == needle
  }

  /** `hay.includes(needle)`. */
  predicate Contains(hay: string, needle: string) {
    exists i | 0 <= i <= |hay| :: OccursAt(hay, needle, i)
  }

  /** Every string includes the empty string. */
  lemma ContainsEmpty(hay: string)
    ensures Contains(hay, [])
  {
    assert OccursAt(hay, [], 0);
  }

  /** A string includes itself, at position 0. */
  lemma ContainsSelf(s: string)
    ensures Contains(s, s)
  {
    assert OccursAt(s, s, 0);
  }

  /** JavaScript's `a < b` on strings: lexicographic by character. JavaScript compares
      UTF-16 code units, which orders characters outside the Basic Multilingual Plane
      differently; the model compares whole characters. */
  predicate StrLess(a: string, b: string)
    decreases |a|
  {
    if a == [] then b != []
    else if b == [] then false
    else if a[0] != b[0] then a[0] < b[0]
    else StrLess(a[1..], b[1..])
  }

  /** No string is less than itself. */
  lemma {:induction false} StrLessIrreflexive(a: string)
    ensures !StrLess(a, a)
    decreases |a|
  {
    if a != [] {
      StrLessIrreflexive(a[1..]);
    }
  }

  /** Of two different strings exactly one is the lesser. */
  lemma {:induction false} StrLessTrichotomy(a: string, b: string)
    ensures a == b || StrLess(a, b) || StrLess(b, a)
    ensures !(StrLess(a, b) && StrLess(b, a))
    decreases |a|
  {
    if a != [] && b != [] && a[0] == b[0] {
      StrLessTrichotomy(a[1..], b[1..]);
      if a[1..] == b[1..] {
        assert a == [a[0]] + a[1..] && b == [b[0]] + b[1..];
      }
    }
  }
}

=== FILE: user_context.dfy ===
/** The session store: the logged-in user, the list of all users, the user's
    notification preferences, browser storage and the `Authorization` header that
    every later request carries. */
module UserContext {
  import opened Base
  import Seqs

  datatype Notifications = Notifications(email: bool, whatsapp: bool)

  /** The preferences a session starts from and falls back to. */
  const DefaultNotifications := Notifications(true, true)

  /** A user record as the server returns it. */
  datatype User = User(
    id: string,
    name: string,
    email: string,
    role: string,
    profilePic: Option<string>,
    notifications: Option<Notifications>)

  /** A value in browser storage: a user saved as JSON, or a plain string. */
  datatype Stored = UserJson(user: User) | Raw(text: string)

  /** Browser storage, by key. */
  type Storage = map<string, Stored>

  const UserKey := "user"
  const TokenKey := "token"

  /** The whole session state. `authHeader` is the default `Authorization` header. */
  datatype Session = Session(
    user: Option<User>,
    allUsers: seq<User>,
    notifications: Notifications,
    storage: Storage,
    authHeader: Option<string>)

  /** The body of a profile update; `password` is left out when not being changed. */
  datatype ProfileUpdate = ProfileUpdate(name: string, email: string, password: Option<string>, profilePic: string)

  /** The body of a successful login. */
  datatype LoginReply = LoginReply(user: User, token: string)

  /** A session after an awaited call, with what the call resolved to or rejected with. */
  datatype SessionStep<T> = SessionStep(session: Session, result: Outcome<T>)

  /** The session before anything is restored or after logging out. */
  function SignedOut(storage: Storage): (s: Session)
    ensures s.user.None? && s.allUsers == [] && s.authHeader.None?
    ensures s.notifications == DefaultNotifications
  {
    Session(None, [], DefaultNotifications, storage, None)
  }

  /** The user saved in storage, if one is. */
  function StoredUser(storage: Storage): Option<User> {
    if UserKey in storage && storage[UserKey].UserJson? then Some(storage[UserKey].user) else None
  }

  /** The token saved in storage, if a non-empty one is. */
  function StoredToken(storage: Storage): Option<string> {
    if TokenKey in storage && storage[TokenKey].Raw? && storage[TokenKey].text != "" then Some(storage[TokenKey].text)
    else None
  }

  /** `fetchAllUsers`: replaces the list on success; a failure is only logged. */
  function FetchAllUsers(s: Session, resp: Response<seq<User>>): (r: Session)
    ensures resp.Ok? ==> r == s.(allUsers := resp.body)
    ensures resp.Failed? ==> r == s
  {
    match resp
    case Ok(us) => s.(allUsers := us)
    case Failed(_) => s
  }

  /** The start-up effect: the user, their preferences (or the defaults) and the header
      come back only when both a stored user and a stored token exist; the user list
      is then fetched either way. */
  function Restore(storage: Storage, fetch: Response<seq<User>>): (s: Session)
    ensures s.storage == storage
    ensures s.user.Some? <==> StoredUser(storage).Some? && StoredToken(storage).Some?
    ensures s.user.Some? ==> s.user == StoredUser(storage)
    ensures s.user.Some? ==> s.notifications == s.user.value.notifications.GetOr(DefaultNotifications)
    ensures s.user.None? ==> s.notifications == DefaultNotifications
    ensures s.authHeader.Some? <==> s.user.Some?
    ensures s.authHeader.Some? ==> s.authHeader.value == "Bearer " + StoredToken(storage).value
  {
    var base :=
      match (StoredUser(storage), StoredToken(storage))
      case (Some(u), Some(t)) =>
        Session(Some(u), [], u.notifications.GetOr(DefaultNotifications), storage, Some("Bearer " + t))
      case _ => SignedOut(storage);
    FetchAllUsers(base, fetch)
  }

  /** `loginUser`: on success the user is kept under "user", the token under "token",
      the header becomes "Bearer " + token and the user list is refetched; a failure
      is rethrown with the session unchanged. */
  function Login(s: Session, resp: Response<LoginReply>, fetch: Response<seq<User>>): (r: SessionStep<User>)
    ensures resp.Ok? ==> r.result == Resolved(resp.body.user)
    ensures resp.Ok? ==> r.session.user == Some(resp.body.user)
    ensures resp.Ok? ==> r.session.storage == s.storage[UserKey := UserJson(resp.body.user)][TokenKey := Raw(resp.body.token)]
    ensures resp.Ok? ==> r.session.authHeader == Some("Bearer " + resp.body.token)
    ensures resp.Ok? ==> r.session.notifications == s.notifications
    ensures resp.Failed? ==> r == SessionStep(s, Rejected(resp.message))
  {
    match resp
    case Ok(LoginReply(u, t)) =>
      var s1 := s.(user := Some(u),
                   storage := s.storage[UserKey := UserJson(u)][TokenKey := Raw(t)],
                   authHeader := Some("Bearer " + t));
      SessionStep(FetchAllUsers(s1, fetch), Resolved(u))
    case Failed(m) => SessionStep(s, Rejected(m))
  }

  /** `logoutUser`: back to the signed-out state, with both storage keys and the
      header removed. */
  function Logout(s: Session): (r: Session)
    ensures r.user.None? && r.allUsers == [] && r.authHeader.None?
    ensures r.notifications == DefaultNotifications
    ensures UserKey !in r.storage && TokenKey !in r.storage
    ensures forall k :: k in s.storage && k != UserKey && k != TokenKey ==> k in r.storage && r.storage[k] == s.storage[k]
    ensures forall k :: k in r.storage ==> k in s.storage
  {
    SignedOut(s.storage - {UserKey, TokenKey})
  }

  /** A session that logged in restores, after a restart, the same user with the
      same header, as long as the token is not empty. */
  lemma LoginSurvivesRestart(s: Session, u: User, token: string, f1: Response<seq<User>>, f2: Response<seq<User>>)
    requires token != ""
    ensures var after := Login(s, Ok(LoginReply(u, token)), f1).session;
            var restarted := Restore(after.storage, f2);
            restarted.user == Some(u) && restarted.authHeader == Some("Bearer " + token)
  {
  }

  /** After logging out, a restart restores nobody. */
  lemma LogoutSurvivesRestart(s: Session, f: Response<seq<User>>)
    ensures Restore(Logout(s).storage, f).user.None?
    ensures Restore(Logout(s).storage, f).authHeader.None?
  {
  }

  /** Logging out twice is logging out once. */
  lemma LogoutIdempotent(s: Session)
    ensures Logout(Logout(s)) == Logout(s)
  {
  }

  /** `createUser`: the server's user is appended on success; a failure is rethrown
      and the list is kept. */
  function CreateUser(s: Session, resp: Response<User>): (r: SessionStep<User>)
    ensures resp.Ok? ==> r == SessionStep(s.(allUsers := s.allUsers + [resp.body]), Resolved(resp.body))
    ensures resp.Failed? ==> r == SessionStep(s, Rejected(resp.message))
  {
    match resp
    case Ok(u) => SessionStep(s.(allUsers := s.allUsers + [u]), Resolved(u))
    case Failed(m) => SessionStep(s, Rejected(m))
  }

  /** Deleting a user just created under a fresh id, other than one's own, gives the
      session back exactly as it was. */
  lemma CreateThenDelete(s: Session, u: User)
    requires forall i :: 0 <= i < |s.allUsers| ==> s.allUsers[i].id != u.id
    requires !(s.user.Some? && s.user.value.id == u.id)
    ensures DeleteUser(CreateUser(s, Ok(u)).session, u.id, Ok(())).session == s
  {
    var keep := (x: User) => x.id != u.id;
    Seqs.FilterConcat(s.allUsers, [u], keep);
    Seqs.FilterKeepsAll(s.allUsers, keep);
    assert Seqs.Filter([u], keep) == [];
  }

  /** `deleteUser`: on success every user with the id leaves the list, and deleting
      oneself also logs out; a failure is rethrown and nothing changes. */
  function DeleteUser(s: Session, userId: string, resp: Response<()>): (r: SessionStep<bool>)
    ensures resp.Failed? ==> r == SessionStep(s, Rejected(resp.message))
    ensures resp.Ok? ==> r.result == Resolved(true)
    ensures resp.Ok? ==> forall i :: 0 <= i < |r.session.allUsers| ==> r.session.allUsers[i].id != userId
    ensures resp.Ok? ==> Seqs.IsSubsequence(r.session.allUsers, s.allUsers)
    ensures resp.Ok? && s.user.Some? && s.user.value.id == userId ==> r.session == Logout(s)
    ensures resp.Ok? && !(s.user.Some? && s.user.value.id == userId) ==>
      r.session == s.(allUsers := Seqs.Filter(s.allUsers, (u: User) => u.id != userId))
  {
    match resp
    case Ok(_) =>
      var s1 := s.(allUsers := Seqs.Filter(s.allUsers, (u: User) => u.id != userId));
      if s.user.Some? && s.user.value.id == userId then SessionStep(Logout(s1), Resolved(true))
      else SessionStep(s1, Resolved(true))
    case Failed(m) => SessionStep(s, Rejected(m))
  }

  /** `updateUser`: does nothing and resolves with nothing when nobody is logged in;
      otherwise on success the server's user replaces the current one in state and in
      storage and the list is refetched, and a failure is rethrown. */
  function UpdateUser(s: Session, updates: ProfileUpdate, resp: Response<User>, fetch: Response<seq<User>>)
    : (r: SessionStep<Option<User>>)
    ensures s.user.None? ==> r == SessionStep(s, Resolved(None))
    ensures s.user.Some? && resp.Ok? ==> r.result == Resolved(Some(resp.body))
    ensures s.user.Some? && resp.Ok? ==> r.session.user == Some(resp.body)
    ensures s.user.Some? && resp.Ok? ==> r.session.storage == s.storage[UserKey := UserJson(resp.body)]
    ensures s.user.Some? && resp.Ok? ==> r.session.authHeader == s.authHeader
    ensures s.user.Some? && resp.Failed? ==> r == SessionStep(s, Rejected(resp.message))
  {
    if s.user.None? then SessionStep(s, Resolved(None))
    else
      match resp
      case Ok(u) =>
        SessionStep(FetchAllUsers(s.(user := Some(u), storage := s.storage[UserKey := UserJson(u)]), fetch),
                    Resolved(Some(u)))
      case Failed(m) => SessionStep(s, Rejected(m))
  }

  /** `updateNotifications`: does nothing when nobody is logged in; on success only
      the preferences change, in state, in the user and in storage; a failure is
      swallowed. */
  function UpdateNotifications(s: Session, resp: Response<Notifications>): (r: Session)
    ensures s.user.None? || resp.Failed? ==> r == s
    ensures s.user.Some? && resp.Ok? ==>
      && r.notifications == resp.body
      && r.user == Some(s.user.value.(notifications := Some(resp.body)))
      && r.storage == s.storage[UserKey := UserJson(r.user.value)]
      && r.allUsers == s.allUsers && r.authHeader == s.authHeader
  {
    if s.user.None? then s
    else
      match resp
      case Ok(n) =>
        var u := s.user.value.(notifications := Some(n));
        s.(notifications := n, user := Some(u), storage := s.storage[UserKey := UserJson(u)])
      case Failed(_) => s
  }

  /** New preferences survive a restart. */
  lemma NotificationsSurviveRestart(s: Session, n: Notifications, f: Response<seq<User>>)
    requires s.user.Some? && StoredToken(s.storage).Some?
    ensures Restore(UpdateNotifications(s, Ok(n)).storage, f).notifications == n
  {
  }
}

=== FILE: user_management.dfy ===
/** The user management table: which users are listed, the search over them, the
    summary cards, who may edit whom, and the in-place role change. */
module UserManagement {
  import opened Base
  import Seqs
  import Text
  import opened UserContext

  /** `visibleUsers`: every user but those whose role is exactly "superadmin". */
  function VisibleUsers(all: seq<User>): (r: seq<User>)
    ensures forall i :: 0 <= i < |r| ==> r[i].role != "superadmin" && r[i] in all
    ensures forall i :: 0 <= i < |all| && all[i].role != "superadmin" ==> all[i] in r
    ensures Seqs.IsSubsequence(r, all)
  {
    Seqs.Filter(all, (u: User) => u.role != "superadmin")
  }

  /** The search: the lower-cased name, email or role includes the lower-cased term. */
  predicate MatchesUser(u: User, term: string) {
    var t := Text.ToLower(term);
    Text.Contains(Text.ToLower(u.name), t) || Text.Contains(Text.ToLower(u.email), t) ||
    Text.Contains(Text.ToLower(u.role), t)
  }

  /** `filteredUsers`: the visible users that match the search, in order. */
  function FilteredUsers(all: seq<User>, term: string): (r: seq<User>)
    ensures forall i :: 0 <= i < |r| ==> MatchesUser(r[i], term) && r[i].role != "superadmin" && r[i] in all
    ensures forall i :: 0 <= i < |all| && all[i].role != "superadmin" && MatchesUser(all[i], term) ==> all[i] in r
    ensures Seqs.IsSubsequence(r, VisibleUsers(all))
  {
    Seqs.Filter(VisibleUsers(all), (u: User) => MatchesUser(u, term))
  }

  /** An empty search lists every visible user. */
  lemma EmptySearchListsVisible(all: seq<User>)
    ensures FilteredUsers(all, "") == VisibleUsers(all)
  {
    var v := VisibleUsers(all);
    forall i | 0 <= i < |v|
      ensures MatchesUser(v[i], "")
    {
      Text.ContainsEmpty(Text.ToLower(v[i].name));
    }
    Seqs.FilterKeepsAll(v, (u: User) => MatchesUser(u, ""));
  }

  /** A user is always found by their own role, whatever its case. */
  lemma SearchFindsRole(u: User)
    ensures MatchesUser(u, u.role)
  {
    Text.ContainsSelf(Text.ToLower(u.role));
  }

  /** The number of listed users whose lower-cased role is `role`. */
  function RoleCount(visible: seq<User>, role: string): nat {
    Seqs.Count(visible, (u: User) => Text.ToLower(u.role) == role)
  }

  /** The summary cards: the three role cards never add up to more than the total. */
  lemma CardCountsBounded(all: seq<User>)
    ensures RoleCount(VisibleUsers(all), "admin") + RoleCount(VisibleUsers(all), "manager")
            + RoleCount(VisibleUsers(all), "staff") <= |VisibleUsers(all)|
  {
    Seqs.DisjointCountsBounded(VisibleUsers(all),
      (u: User) => Text.ToLower(u.role) == "admin",
      (u: User) => Text.ToLower(u.role) == "manager",
      (u: User) => Text.ToLower(u.role) == "staff");
  }

  /** `getRoleOptions`: a superadmin may hand out admin, manager or staff; anyone else
      only staff. */
  function GetRoleOptions(current: User): (r: seq<string>)
    ensures "staff" in r && "superadmin" !in r
    ensures "admin" in r <==> current.role == "superadmin"
    ensures "manager" in r <==> current.role == "superadmin"
    ensures current.role != "superadmin" ==> r == ["staff"]
  {
    if current.role == "superadmin" then ["admin", "manager", "staff"] else ["staff"]
  }

  /** `canEditOrDelete`: a superadmin acts on anyone but a superadmin, an admin only
      on staff, everyone else on nobody. */
  function CanEditOrDelete(current: User, u: User): (ok: bool)
    ensures ok ==> u.role != "superadmin" && current.role in ["superadmin", "admin"]
    ensures current.role == "superadmin" ==> (ok <==> u.role != "superadmin")
    ensures current.role != "superadmin" ==> (ok <==> current.role == "admin" && u.role == "staff")
    ensures ok && current.role != "superadmin" ==> u.role in GetRoleOptions(current)
  {
    if current.role == "superadmin" then u.role != "superadmin"
    else if current.role == "admin" then u.role == "staff"
    else false
  }

  /** Only superadmins and admins act on anyone, and nobody acts on a superadmin. */
  lemma OnlyAdminsEdit(current: User, u: User)
    ensures CanEditOrDelete(current, u) ==> current.role in ["superadmin", "admin"] && u.role != "superadmin"
  {
  }

  /** Any role the current user may hand out leaves the target editable by them. */
  lemma RoleOptionsKeepEditable(current: User, u: User, role: string)
    requires CanEditOrDelete(current, u) && role in GetRoleOptions(current)
    ensures CanEditOrDelete(current, u.(role := role))
  {
  }

  /** `findIndex`: the first position whose user has the id, if any. */
  function FirstIndex(users: seq<User>, id: string): (r: Option<nat>)
    ensures r.None? <==> forall i :: 0 <= i < |users| ==> users[i].id != id
    ensures r.Some? ==> r.value < |users| && users[r.value].id == id
    ensures r.Some? ==> forall i :: 0 <= i < r.value ==> users[i].id != id
  {
    if users == [] then None
    else if users[0].id == id then Some(0)
    else match FirstIndex(users[1..], id)
      case None => None
      case Some(k) => Some(k + 1)
  }

  /** `handleRoleChange`: only the first user with the id gets the new role; the list
      is changed in place and nothing is sent to the server. */
  function HandleRoleChange(all: seq<User>, id: string, role: string): (r: seq<User>)
    ensures |r| == |all|
    ensures FirstIndex(all, id).None? ==> r == all
    ensures FirstIndex(all, id).Some? ==>
      var k := FirstIndex(all, id).value;
      r[k] == all[k].(role := role) && forall i :: 0 <= i < |all| && i != k ==> r[i] == all[i]
  {
    match FirstIndex(all, id)
    case None => all
    case Some(k) => all[k := all[k].(role := role)]
  }

  /** A second user with the same id keeps their old role. */
  lemma OnlyFirstMatchChanges(all: seq<User>, id: string, role: string, j: nat)
    requires 0 <= j < |all| && all[j].id == id
    requires exists i :: 0 <= i < j && all[i].id == id
    ensures HandleRoleChange(all, id, role)[j] == all[j]
  {
  }

  /** Changing to the same role twice is changing it once. */
  lemma RoleChangeIdempotent(all: seq<User>, id: string, role: string)
    ensures HandleRoleChange(HandleRoleChange(all, id, role), id, role) == HandleRoleChange(all, id, role)
  {
    var once := HandleRoleChange(all, id, role);
    assert forall i :: 0 <= i < |all| ==> once[i].id == all[i].id;
    assert FirstIndex(once, id) == FirstIndex(all, id);
  }
}

=== FILE: work_context.dfy ===
/** The work store: the list of work orders (catering jobs) the dashboard holds,
    and the four operations that change it. Every operation issues one request and
    then updates the list from the server's answer; a failed request leaves the
    list alone and only changes the status message. No operation ever hands a
    failure back to its caller: the result types below have no error case. */
module WorkContext {
  import opened Base
  import Seqs

  /** The user an assignment points at, as the server embeds it. */
  datatype StaffRef = StaffRef(id: string, name: Option<string>)

  /** One staff member's entry in a work order: who, what they were paid, and
      the infractions recorded against them. */
  datatype Assignment = Assignment(
    user: Option<StaffRef>,
    name: Option<string>,
    amountPaid: Option<int>,
    violations: seq<string>)

  /** A checklist item of a work order. */
  datatype Task = Task(status: string)

  /** A work order as the server returns it. Money is a whole number of currency
      units; `createdAt` is a timestamp. */
  datatype Work = Work(
    id: string,
    title: string,
    description: string,
    dueDate: string,
    status: string,
    totalMembers: Option<int>,
    budget: Option<int>,
    assignedTo: Option<seq<Assignment>>,
    tasks: Option<seq<Task>>,
    createdAt: int)

  /** One entry of an `assignedTo` value as callers pass it: a plain id, an object
      that may carry `value`, `user._id` and `_id`, or `null`/`undefined`. */
  datatype Assignee =
    | IdText(id: string)
    | Ref(value: Option<string>, userId: Option<string>, ownId: Option<string>)
    | Missing

  /** The `assignedTo` value of a payload: absent or falsy, a single entry, or an array. */
  datatype AssignedInput = Absent | Single(item: Assignee) | Many(items: seq<Assignee>)

  /** The body of a create or update request; every field may be left out. */
  datatype WorkPayload = WorkPayload(
    title: Option<string>,
    description: Option<string>,
    dueDate: Option<string>,
    startTime: Option<string>,
    endTime: Option<string>,
    totalMembers: Option<int>,
    budget: Option<int>,
    assignedTo: AssignedInput)

  /** The body of a staff payment request. `violations` is `None` when the caller's
      value is not an array. */
  datatype PaymentData = PaymentData(amountPaid: Option<int>, violations: Option<seq<string>>)

  /** A request the store sends to the server. */
  datatype WorkRequest =
    | PostWork(payload: WorkPayload)
    | PutWork(workId: string, payload: WorkPayload)
    | DeleteWorkReq(workId: string)
    | PatchStaff(workId: string, staffId: string, data: PaymentData)

  /** The store's state: the loaded work orders and the last status message. */
  datatype WorkState = WorkState(works: seq<Work>, message: string)

  /** The state after an operation and the request the operation sent. */
  datatype WorkStep = WorkStep(state: WorkState, request: WorkRequest)

  /** The entries `assignedTo` stands for: a falsy value stands for none and a
      single non-array value for a one-element list. */
  function Entries(input: AssignedInput): seq<Assignee> {
    match input
    case Absent => []
    case Single(a) => [a]
    case Many(xs) => xs
  }

  /** The id one entry contributes: a string is taken as is, an object yields the
      first truthy one of `value`, `user._id` and `_id`; "" stands for a falsy result. */
  function PickId(a: Assignee): (id: string)
    ensures a.IdText? ==> id == a.id
    ensures a.Ref? && TruthyText(a.value) ==> id == a.value.value
    ensures a.Ref? && !TruthyText(a.value) && TruthyText(a.userId) ==> id == a.userId.value
    ensures a.Ref? && !TruthyText(a.value) && !TruthyText(a.userId) && TruthyText(a.ownId) ==> id == a.ownId.value
    ensures a.Ref? && !TruthyText(a.value) && !TruthyText(a.userId) && !TruthyText(a.ownId) ==> id == ""
    ensures a.Missing? ==> id == ""
  {
    match a
    case IdText(s) => s
    case Ref(v, u, o) =>
      if TruthyText(v) then v.value
      else if TruthyText(u) then u.value
      else if TruthyText(o) then o.value
      else ""
    case Missing => ""
  }

  predicate NonEmptyText(s: string) {
    s != ""
  }

  /** `normalizeAssignedTo`: reduce every shape of `assignedTo` to a list of plain
      ids, dropping entries that yield nothing. Duplicates are kept. */
  function NormalizeAssignedTo(input: AssignedInput): (ids: seq<string>)
    ensures input.Absent? ==> ids == []
    ensures |ids| <= |Entries(input)|
    ensures forall i :: 0 <= i < |ids| ==> ids[i] != ""
    ensures forall i :: 0 <= i < |ids| ==> exists j :: 0 <= j < |Entries(input)| && PickId(Entries(input)[j]) == ids[i]
    ensures forall j :: 0 <= j < |Entries(input)| && PickId(Entries(input)[j]) != "" ==> PickId(Entries(input)[j]) in ids
    ensures Seqs.IsSubsequence(ids, Seqs.Map(Entries(input), PickId))
    ensures forall id :: multiset(ids)[id] == if id != "" then multiset(Seqs.Map(Entries(input), PickId))[id] else 0
  {
    var picked := Seqs.Map(Entries(input), PickId);
    var ids := Seqs.Filter(picked, NonEmptyText);
    assert forall i :: 0 <= i < |ids| ==> ids[i] in picked;
    assert forall id :: multiset(ids)[id] == if id != "" then multiset(picked)[id] else 0 by {
      forall id ensures multiset(ids)[id] == if id != "" then multiset(picked)[id] else 0 {
        Seqs.FilterMultiplicity(picked, NonEmptyText, id);
      }
    }
    ids
  }

  /** A list of ids as an `assignedTo` array of plain strings. */
  function AsIdList(ids: seq<string>): AssignedInput {
    Many(Seqs.Map(ids, (id: string) => IdText(id)))
  }

  /** Normalizing a list of non-empty plain ids changes nothing. */
  lemma NormalizeIds(ids: seq<string>)
    requires forall i :: 0 <= i < |ids| ==> ids[i] != ""
    ensures NormalizeAssignedTo(AsIdList(ids)) == ids
  {
    var picked := Seqs.Map(Entries(AsIdList(ids)), PickId);
    assert picked == ids;
    Seqs.FilterKeepsAll(ids, NonEmptyText);
  }

  /** Normalizing is idempotent: the normalized list, passed again, comes back unchanged. */
  lemma NormalizeIdempotent(input: AssignedInput)
    ensures NormalizeAssignedTo(AsIdList(NormalizeAssignedTo(input))) == NormalizeAssignedTo(input)
  {
    NormalizeIds(NormalizeAssignedTo(input));
  }

  /** Ids wrapped as `{user: {_id: id}}` normalize back to the ids themselves. */
  lemma NormalizeUserRefs(ids: seq<string>)
    requires forall i :: 0 <= i < |ids| ==> ids[i] != ""
    ensures NormalizeAssignedTo(Many(Seqs.Map(ids, (id: string) => Ref(None, Some(id), None)))) == ids
  {
    var input := Many(Seqs.Map(ids, (id: string) => Ref(None, Some(id), None)));
    var picked := Seqs.Map(Entries(input), PickId);
    assert picked == ids;
    Seqs.FilterKeepsAll(ids, NonEmptyText);
  }

  /** The payload `addWork` actually sends: `assignedTo` normalized, and `totalMembers`
      replaced by the number of normalized ids whenever it is falsy (missing or 0). */
  function PrepareAdd(p: WorkPayload): (q: WorkPayload)
    ensures q.assignedTo == AsIdList(NormalizeAssignedTo(p.assignedTo))
    ensures TruthyNumber(p.totalMembers) ==> q.totalMembers == p.totalMembers
    ensures !TruthyNumber(p.totalMembers) ==> q.totalMembers == Some(|NormalizeAssignedTo(p.assignedTo)|)
    ensures q.(assignedTo := p.assignedTo, totalMembers := p.totalMembers) == p
  {
    var ids := NormalizeAssignedTo(p.assignedTo);
    p.(assignedTo := AsIdList(ids),
       totalMembers := if TruthyNumber(p.totalMembers) then p.totalMembers else Some(|ids|))
  }

  /** The payload `updateWork` actually sends: only `assignedTo` changes, and it is
      always present, as `[]` when the patch had none. */
  function PrepareUpdate(p: WorkPayload): (q: WorkPayload)
    ensures q.assignedTo.Many?
    ensures p.assignedTo.Absent? ==> q.assignedTo == Many([])
    ensures q.(assignedTo := p.assignedTo) == p
  {
    p.(assignedTo := AsIdList(NormalizeAssignedTo(p.assignedTo)))
  }

  /** `updateStaffPayment`'s coercion: `violations` becomes `[]` when it is not an array. */
  function CoercePayment(data: PaymentData): (d: PaymentData)
    ensures d.violations.Some?
    ensures data.violations.Some? ==> d == data
    ensures d.amountPaid == data.amountPaid
  {
    data.(violations := Some(data.violations.GetOr([])))
  }

  /** Every work whose id is `id` replaced by `rec`; the others stay where they are. */
  function ReplaceById(ws: seq<Work>, id: string, rec: Work): (r: seq<Work>)
    ensures |r| == |ws|
    ensures forall i :: 0 <= i < |ws| && ws[i].id == id ==> r[i] == rec
    ensures forall i :: 0 <= i < |ws| && ws[i].id != id ==> r[i] == ws[i]
  {
    Seqs.Map(ws, (w: Work) => if w.id == id then rec else w)
  }

  /** Replacing twice with the same record is replacing once, provided the record
      keeps the id it replaces. */
  lemma ReplaceByIdIdempotent(ws: seq<Work>, id: string, rec: Work)
    requires rec.id == id
    ensures ReplaceById(ReplaceById(ws, id, rec), id, rec) == ReplaceById(ws, id, rec)
  {
  }

  /** `addWork`: on success the server's record is appended, on failure the list is kept. */
  function AddWork(st: WorkState, p: WorkPayload, resp: Response<Work>): (step: WorkStep)
    ensures step.request == PostWork(PrepareAdd(p))
    ensures resp.Ok? ==> step.state.works == st.works + [resp.body]
    ensures resp.Ok? ==> step.state.message == "Work added successfully."
    ensures resp.Failed? ==> step.state == WorkState(st.works, "Add work failed.")
  {
    var req := PostWork(PrepareAdd(p));
    match resp
    case Ok(w) => WorkStep(WorkState(st.works + [w], "Work added successfully."), req)
    case Failed(_) => WorkStep(st.(message := "Add work failed."), req)
  }

  /** `updateWork`: on success every work with the id is replaced by the server's
      record, keeping length and the order of all others; on failure nothing changes
      but the message. */
  function UpdateWork(st: WorkState, workId: string, p: WorkPayload, resp: Response<Work>): (step: WorkStep)
    ensures step.request == PutWork(workId, PrepareUpdate(p))
    ensures |step.state.works| == |st.works|
    ensures resp.Ok? ==> forall i :: 0 <= i < |st.works| ==>
      step.state.works[i] == (if st.works[i].id == workId then resp.body else st.works[i])
    ensures resp.Failed? ==> step.state == WorkState(st.works, "Update work failed.")
  {
    var req := PutWork(workId, PrepareUpdate(p));
    match resp
    case Ok(w) => WorkStep(WorkState(ReplaceById(st.works, workId, w), "Work updated successfully."), req)
    case Failed(_) => WorkStep(st.(message := "Update work failed."), req)
  }

  /** `deleteWork`: only after the request succeeds are the works with that id removed;
      exactly those, and the rest keep their order. */
  function DeleteWork(st: WorkState, workId: string, resp: Response<()>): (step: WorkStep)
    ensures step.request == DeleteWorkReq(workId)
    ensures resp.Ok? ==> forall i :: 0 <= i < |step.state.works| ==> step.state.works[i].id != workId
    ensures resp.Ok? ==> forall i :: 0 <= i < |st.works| && st.works[i].id != workId ==> st.works[i] in step.state.works
    ensures resp.Ok? ==> Seqs.IsSubsequence(step.state.works, st.works)
    ensures resp.Ok? ==> |step.state.works| == |st.works| - Seqs.Count(st.works, (w: Work) => w.id == workId)
    ensures resp.Failed? ==> step.state == WorkState(st.works, "Delete work failed.")
  {
    match resp
    case Ok(_) =>
      var keep := (w: Work) => w.id != workId;
      Seqs.FilterPartition(st.works, keep, (w: Work) => w.id == workId);
      WorkStep(WorkState(Seqs.Filter(st.works, keep), "Work deleted successfully."), DeleteWorkReq(workId))
    case Failed(_) => WorkStep(st.(message := "Delete work failed."), DeleteWorkReq(workId))
  }

  /** `updateStaffPayment`: sends the coerced payment data, then on success replaces
      the work with that id by the server's record, exactly as `updateWork` does. */
  function UpdateStaffPayment(st: WorkState, workId: string, staffId: string, data: PaymentData,
                              resp: Response<Work>): (step: WorkStep)
    ensures step.request == PatchStaff(workId, staffId, CoercePayment(data))
    ensures |step.state.works| == |st.works|
    ensures resp.Ok? ==> forall i :: 0 <= i < |st.works| ==>
      step.state.works[i] == (if st.works[i].id == workId then resp.body else st.works[i])
    ensures resp.Failed? ==> step.state == WorkState(st.works, "Failed to update staff payment.")
  {
    var req := PatchStaff(workId, staffId, CoercePayment(data));
    match resp
    case Ok(w) => WorkStep(WorkState(ReplaceById(st.works, workId, w), "Staff payment updated."), req)
    case Failed(_) => WorkStep(st.(message := "Failed to update staff payment."), req)
  }

  /** Adding a work with a fresh id and then deleting that id gives back the list
      one started from. */
  lemma AddThenDelete(st: WorkState, p: WorkPayload, w: Work)
    requires forall i :: 0 <= i < |st.works| ==> st.works[i].id != w.id
    ensures DeleteWork(AddWork(st, p, Ok(w)).state, w.id, Ok(())).state.works == st.works
  {
    var keep := (x: Work) => x.id != w.id;
    Seqs.FilterKeepsAll(st.works, keep);
    FilterAppendDrop(st.works, w, keep);
  }

  /** Filtering a list with one rejected element appended drops just that element. */
  lemma {:induction false} FilterAppendDrop(s: seq<Work>, w: Work, keep: Work -> bool)
    requires !keep(w)
    ensures Seqs.Filter(s + [w], keep) == Seqs.Filter(s, keep)
  {
    if s == [] {
      assert [w][1..] == [];
    } else {
      assert (s + [w])[1..] == s[1..] + [w];
      FilterAppendDrop(s[1..], w, keep);
    }
  }

  /** Updating a work that is present never changes which ids the list holds, as long
      as the server keeps the id. */
  lemma UpdateKeepsIds(st: WorkState, workId: string, p: WorkPayload, w: Work)
    requires w.id == workId
    ensures forall i :: 0 <= i < |st.works| ==> UpdateWork(st, workId, p, Ok(w)).state.works[i].id == st.works[i].id
  {
  }

  /** A work created with no head count, or a head count of 0, gets one per assigned
      id: three staff and no count give a count of 3. */
  lemma DefaultHeadCount(p: WorkPayload, ids: seq<string>)
    requires !TruthyNumber(p.totalMembers)
    requires p.assignedTo == AsIdList(ids)
    requires forall i :: 0 <= i < |ids| ==> ids[i] != ""
    ensures PrepareAdd(p).totalMembers == Some(|ids|)
  {
    NormalizeIds(ids);
  }
}

=== FILE: work_details.dfy ===
/** The work detail view: a local mirror of one work order's staff list and editable
    fields, the staff payment handler that recomputes the net budget, the save
    handler, and the progress shown in the panel. */
module WorkDetails {
  import opened Base
  import Seqs
  import opened WorkContext
  import WorkManagement

  /** The editable copy of a work's fields; numbers are `None` once an input held
      something that does not parse. */
  datatype Editable = Editable(
    title: string,
    description: string,
    dueDate: string,
    totalMembers: Option<int>,
    budget: Option<int>)

  /** The view's state: the work it was opened on, the staff list shown, the work as
      last displayed, the edit form and whether editing is on. */
  datatype Details = Details(
    work: Work,
    staff: seq<Assignment>,
    current: Work,
    editable: Editable,
    editing: bool)

  /** What a handler leaves behind: the view, the store, the requests sent in order,
      and the toast shown. */
  datatype HandlerStep = HandlerStep(
    details: Details,
    store: WorkState,
    requests: seq<WorkRequest>,
    toast: string)

  /** The view as it opens on `w`: the staff list is `assignedTo` (or empty), the
      editable head count is `totalMembers`, else the number of assignments, else 0,
      and the editable budget is the loaded budget, else 0. */
  function OpenDetails(w: Work): (d: Details)
    ensures d.staff == w.assignedTo.GetOr([])
    ensures |d.staff| == WorkManagement.JoinedCount(w)
    ensures TruthyNumber(w.totalMembers) ==> d.editable.totalMembers == w.totalMembers
    ensures !TruthyNumber(w.totalMembers) ==> d.editable.totalMembers == Some(WorkManagement.JoinedCount(w))
    ensures d.editable.budget == Some(w.budget.GetOr(0))
    ensures d.current == w && !d.editing
  {
    var members := if TruthyNumber(w.totalMembers) then w.totalMembers.value else WorkManagement.JoinedCount(w);
    Details(w, w.assignedTo.GetOr([]), w,
            Editable(w.title, w.description, w.dueDate, Some(members), Some(w.budget.GetOr(0))),
            false)
  }

  /** The amount an assignment counts as paid: `amountPaid || 0`. */
  function Paid(a: Assignment): int {
    a.amountPaid.GetOr(0)
  }

  /** `totalPaid`: the sum of what every assignment was paid, missing amounts as 0. */
  function TotalPaid(staff: seq<Assignment>): (t: int)
    ensures (forall i :: 0 <= i < |staff| ==> Paid(staff[i]) >= 0) ==> t >= 0
    ensures (forall i :: 0 <= i < |staff| ==> Paid(staff[i]) == 0) ==> t == 0
  {
    if staff == [] then 0 else Paid(staff[0]) + TotalPaid(staff[1..])
  }

  /** Changing one assignment changes the total by exactly the change in that
      assignment's payment. */
  lemma {:induction false} TotalPaidUpdate(staff: seq<Assignment>, k: int, x: Assignment)
    requires 0 <= k < |staff|
    ensures TotalPaid(staff[k := x]) == TotalPaid(staff) - Paid(staff[k]) + Paid(x)
  {
    if k > 0 {
      assert staff[k := x][1..] == staff[1..][k - 1 := x];
      TotalPaidUpdate(staff[1..], k - 1, x);
    }
  }

  /** Every staff entry carries a user; otherwise reading `s.user._id` throws. */
  predicate AllLinked(staff: seq<Assignment>) {
    forall i :: 0 <= i < |staff| ==> staff[i].user.Some?
  }

  /** `{ ...s, ...data }`: the payment data written over one assignment. `data` has
      been through `CoercePayment`, so it always carries `violations`; `amountPaid`
      is overwritten only when the data has one. */
  function MergeEntry(s: Assignment, data: PaymentData): (m: Assignment)
    ensures m.user == s.user && m.name == s.name
    ensures data.amountPaid.Some? ==> m.amountPaid == data.amountPaid
    ensures data.amountPaid.None? ==> m.amountPaid == s.amountPaid
    ensures data.violations.Some? ==> m.violations == data.violations.value
  {
    s.(amountPaid := if data.amountPaid.Some? then data.amountPaid else s.amountPaid,
       violations := data.violations.GetOr(s.violations))
  }

  /** The updated staff list: only the entries of user `staffId` are merged; length
      and order are kept. */
  function MergeStaff(staff: seq<Assignment>, staffId: string, data: PaymentData): (r: seq<Assignment>)
    requires AllLinked(staff)
    ensures |r| == |staff| && AllLinked(r)
    ensures forall i :: 0 <= i < |staff| && staff[i].user.value.id == staffId ==> r[i] == MergeEntry(staff[i], data)
    ensures forall i :: 0 <= i < |staff| && staff[i].user.value.id != staffId ==> r[i] == staff[i]
  {
    seq(|staff|, i requires 0 <= i < |staff| =>
      if staff[i].user.value.id == staffId then MergeEntry(staff[i], data) else staff[i])
  }

  /** Merging the same data twice is merging it once. */
  lemma MergeStaffIdempotent(staff: seq<Assignment>, staffId: string, data: PaymentData)
    requires AllLinked(staff)
    ensures MergeStaff(MergeStaff(staff, staffId, CoercePayment(data)), staffId, CoercePayment(data))
         == MergeStaff(staff, staffId, CoercePayment(data))
  {
  }

  /** `editableWork.budget - totalPaid`; a budget that is not a number stays one. */
  function NetBudget(budget: Option<int>, staff: seq<Assignment>): (net: Option<int>)
    ensures net.Some? <==> budget.Some?
    ensures budget.Some? ==> net.value + TotalPaid(staff) == budget.value
  {
    if budget.Some? then Some(budget.value - TotalPaid(staff)) else None
  }

  /** The patch `{ budget: netBudget }`. */
  function BudgetPatch(net: Option<int>): WorkPayload {
    WorkPayload(None, None, None, None, None, None, net, Absent)
  }

  /** `handleStaffUpdate` as written: record the payment, merge it into the local
      staff list, recompute the net budget from the editable budget, send it with a
      second update, then refresh the local view. The store swallows both failures,
      so the view and the success toast follow regardless; only a staff entry without
      a user (the merge throws) stops the handler after the first request. */
  function HandleStaffUpdate(d: Details, st: WorkState, staffId: string, data: PaymentData,
                             payResp: Response<Work>, updResp: Response<Work>): (r: HandlerStep)
    ensures |r.requests| >= 1 && r.requests[0] == PatchStaff(d.work.id, staffId, CoercePayment(data))
    ensures r.details.editable == d.editable && r.details.work == d.work
    ensures !AllLinked(d.staff) ==> r.details == d && |r.requests| == 1
    ensures !AllLinked(d.staff) ==> r.toast == "Failed to update staff payment"
    ensures AllLinked(d.staff) ==>
      && r.details.staff == MergeStaff(d.staff, staffId, CoercePayment(data))
      && r.details.current == d.current.(budget := NetBudget(d.editable.budget, r.details.staff))
      && r.requests == [r.requests[0], PutWork(d.work.id, PrepareUpdate(BudgetPatch(r.details.current.budget)))]
      && r.toast == "Staff payment and net budget updated!"
  {
    var pay := UpdateStaffPayment(st, d.work.id, staffId, data, payResp);
    if !AllLinked(d.staff) then
      HandlerStep(d, pay.state, [pay.request], "Failed to update staff payment")
    else
      var updated := MergeStaff(d.staff, staffId, CoercePayment(data));
      var net := NetBudget(d.editable.budget, updated);
      var upd := UpdateWork(pay.state, d.work.id, BudgetPatch(net), updResp);
      HandlerStep(d.(staff := updated, current := d.current.(budget := net)),
                  upd.state, [pay.request, upd.request], "Staff payment and net budget updated!")
  }

  /** The view after a payment does not depend on whether either request succeeded. */
  lemma StaffUpdateIgnoresResponses(d: Details, st: WorkState, staffId: string, data: PaymentData,
                                    p1: Response<Work>, u1: Response<Work>, p2: Response<Work>, u2: Response<Work>)
    ensures HandleStaffUpdate(d, st, staffId, data, p1, u1).details == HandleStaffUpdate(d, st, staffId, data, p2, u2).details
    ensures HandleStaffUpdate(d, st, staffId, data, p1, u1).toast == HandleStaffUpdate(d, st, staffId, data, p2, u2).toast
  {
  }

  /** The budget-only update still carries `assignedTo`, as an empty list. */
  lemma BudgetUpdateCarriesEmptyAssignees(d: Details, st: WorkState, staffId: string, data: PaymentData,
                                          p: Response<Work>, u: Response<Work>)
    requires AllLinked(d.staff)
    ensures HandleStaffUpdate(d, st, staffId, data, p, u).requests[1].payload.assignedTo == Many([])
  {
  }

  /** Recording the same payment again in the same view yields the same net budget:
      nothing is subtracted twice within one opening of the view. */
  lemma RepeatedPaymentSameBudget(d: Details, st: WorkState, staffId: string, data: PaymentData,
                                  p1: Response<Work>, u1: Response<Work>, p2: Response<Work>, u2: Response<Work>)
    requires AllLinked(d.staff)
    ensures var once := HandleStaffUpdate(d, st, staffId, data, p1, u1);
            var twice := HandleStaffUpdate(once.details, once.store, staffId, data, p2, u2);
            twice.details == once.details
  {
    MergeStaffIdempotent(d.staff, staffId, data);
  }

  /** Nothing bounds the net budget from below: paying more than the budget makes it
      negative. */
  lemma OverpaymentGoesNegative(st: WorkState, a: Assignment, p: Response<Work>, u: Response<Work>)
    requires a.user == Some(StaffRef("A", None)) && a.amountPaid == None
    ensures var w := Work("W", "t", "d", "2025-06-01", "pending", None, Some(1000), Some([a]), None, 0);
            HandleStaffUpdate(OpenDetails(w), st, "A", PaymentData(Some(1500), None), p, u).details.current.budget == Some(-500)
  {
    var w := Work("W", "t", "d", "2025-06-01", "pending", None, Some(1000), Some([a]), None, 0);
    var staff := MergeStaff([a], "A", CoercePayment(PaymentData(Some(1500), None)));
    assert staff[0].amountPaid == Some(1500);
    assert TotalPaid(staff) == 1500;
  }

  /** Two staff members paid 2000 and then 1500 within one opening of the view bring
      a budget of 10000 down to 8000 and then to 6500. */
  lemma TwoPaymentsInOneSession(st: WorkState, a: Assignment, b: Assignment,
                                r1: Response<Work>, r2: Response<Work>, r3: Response<Work>, r4: Response<Work>)
    requires a.user == Some(StaffRef("A", None)) && a.amountPaid == None
    requires b.user == Some(StaffRef("B", None)) && b.amountPaid == None
    ensures var w := Work("W", "Wedding Banquet", "", "2025-06-01", "pending", Some(5), Some(10000), Some([a, b]), None, 0);
            var first := HandleStaffUpdate(OpenDetails(w), st, "A", PaymentData(Some(2000), None), r1, r2);
            var second := HandleStaffUpdate(first.details, first.store, "B", PaymentData(Some(1500), None), r3, r4);
            first.details.current.budget == Some(8000) && second.details.current.budget == Some(6500)
  {
    var w := Work("W", "Wedding Banquet", "", "2025-06-01", "pending", Some(5), Some(10000), Some([a, b]), None, 0);
    var s1 := MergeStaff([a, b], "A", CoercePayment(PaymentData(Some(2000), None)));
    assert s1[0].amountPaid == Some(2000) && s1[1] == b;
    assert TotalPaid(s1) == 2000 by { assert s1[1..][1..] == []; }
    var s2 := MergeStaff(s1, "B", CoercePayment(PaymentData(Some(1500), None)));
    assert s2[0] == s1[0] && s2[1].amountPaid == Some(1500);
    assert TotalPaid(s2) == 3500 by { assert s2[1..][1..] == []; }
  }

  /** The work a later opening of the view loads, when the server has stored the
      payments and the net budget the handler sent. */
  function Reloaded(d: Details): Work {
    d.work.(budget := d.current.budget, assignedTo := Some(d.staff))
  }

  /** The net budget as written subtracts every recorded payment from the budget the
      view was opened with. That budget is already net of earlier payments when the
      work is reopened, so payments from an earlier opening are subtracted again:
      10000 less 2000 gives 8000, and a later 1500 in a new opening gives 4500. */
  lemma ReopenSubtractsTwice(st: WorkState, a: Assignment, b: Assignment,
                             r1: Response<Work>, r2: Response<Work>, r3: Response<Work>, r4: Response<Work>)
    requires a.user == Some(StaffRef("A", None)) && a.amountPaid == None
    requires b.user == Some(StaffRef("B", None)) && b.amountPaid == None
    ensures var w := Work("W", "Wedding Banquet", "", "2025-06-01", "pending", Some(5), Some(10000), Some([a, b]), None, 0);
            var first := HandleStaffUpdate(OpenDetails(w), st, "A", PaymentData(Some(2000), None), r1, r2);
            var second := HandleStaffUpdate(OpenDetails(Reloaded(first.details)), first.store, "B", PaymentData(Some(1500), None), r3, r4);
            first.details.current.budget == Some(8000) && second.details.current.budget == Some(4500)
  {
    var w := Work("W", "Wedding Banquet", "", "2025-06-01", "pending", Some(5), Some(10000), Some([a, b]), None, 0);
    var s1 := MergeStaff([a, b], "A", CoercePayment(PaymentData(Some(2000), None)));
    assert s1[0].amountPaid == Some(2000) && s1[1] == b;
    assert TotalPaid(s1) == 2000 by { assert s1[1..][1..] == []; }
    var s2 := MergeStaff(s1, "B", CoercePayment(PaymentData(Some(1500), None)));
    assert s2[0] == s1[0] && s2[1].amountPaid == Some(1500);
    assert TotalPaid(s2) == 3500 by { assert s2[1..][1..] == []; }
  }

  /** The corrected net budget: the loaded budget is already net of what the loaded
      staff list records as paid, so only the change in payments is subtracted. */
  function CorrectedNetBudget(budget: Option<int>, loaded: seq<Assignment>, updated: seq<Assignment>): (net: Option<int>)
    ensures net.Some? <==> budget.Some?
    ensures budget.Some? ==> net.value + TotalPaid(updated) == budget.value + TotalPaid(loaded)
  {
    if budget.Some? then Some(budget.value + TotalPaid(loaded) - TotalPaid(updated)) else None
  }

  /** `handleStaffUpdate` with the corrected net budget; everything else as written. */
  function HandleStaffUpdateCorrected(d: Details, st: WorkState, staffId: string, data: PaymentData,
                                      payResp: Response<Work>, updResp: Response<Work>): (r: HandlerStep)
    ensures r.details.editable == d.editable && r.details.work == d.work
    ensures AllLinked(d.staff) ==>
      && r.details.staff == MergeStaff(d.staff, staffId, CoercePayment(data))
      && r.details.current.budget == CorrectedNetBudget(d.editable.budget, d.work.assignedTo.GetOr([]), r.details.staff)
  {
    var pay := UpdateStaffPayment(st, d.work.id, staffId, data, payResp);
    if !AllLinked(d.staff) then
      HandlerStep(d, pay.state, [pay.request], "Failed to update staff payment")
    else
      var updated := MergeStaff(d.staff, staffId, CoercePayment(data));
      var net := CorrectedNetBudget(d.editable.budget, d.work.assignedTo.GetOr([]), updated);
      var upd := UpdateWork(pay.state, d.work.id, BudgetPatch(net), updResp);
      HandlerStep(d.(staff := updated, current := d.current.(budget := net)),
                  upd.state, [pay.request, upd.request], "Staff payment and net budget updated!")
  }

  /** The budget invariant: the stored budget is the allotted budget less
      everything paid so far. */
  predicate BudgetConsistent(w: Work, allotted: int) {
    w.budget.GetOr(0) == allotted - TotalPaid(w.assignedTo.GetOr([]))
  }

  /** A view a payment can be made in: the loaded work is consistent, the edit form
      holds the loaded budget, and every staff entry is linked to a user. */
  predicate ReadyForPayment(d: Details, allotted: int) {
    BudgetConsistent(d.work, allotted) && d.editable.budget == Some(d.work.budget.GetOr(0)) && AllLinked(d.staff)
  }

  /** Opening the view on a consistent work with linked staff makes it ready. */
  lemma OpeningIsReady(w: Work, allotted: int)
    requires BudgetConsistent(w, allotted) && AllLinked(w.assignedTo.GetOr([]))
    ensures ReadyForPayment(OpenDetails(w), allotted)
  {
  }

  /** With the corrected net budget, every payment in an opening, the first or any later
      one, keeps the invariant for the work a later opening loads, and leaves the view
      ready for the next payment. So the invariant carries over between payments and
      between openings. */
  lemma CorrectedKeepsBudgetInvariant(d: Details, allotted: int, st: WorkState, staffId: string, data: PaymentData,
                                      p: Response<Work>, u: Response<Work>)
    requires ReadyForPayment(d, allotted)
    ensures BudgetConsistent(Reloaded(HandleStaffUpdateCorrected(d, st, staffId, data, p, u).details), allotted)
    ensures ReadyForPayment(HandleStaffUpdateCorrected(d, st, staffId, data, p, u).details, allotted)
  {
  }

  /** For a work with no payments recorded yet, the corrected and the written net
      budget agree. */
  lemma CorrectedAgreesOnFreshWork(w: Work, st: WorkState, staffId: string, data: PaymentData,
                                   p: Response<Work>, u: Response<Work>)
    requires TotalPaid(w.assignedTo.GetOr([])) == 0
    ensures HandleStaffUpdateCorrected(OpenDetails(w), st, staffId, data, p, u)
         == HandleStaffUpdate(OpenDetails(w), st, staffId, data, p, u)
  {
  }

  /** `handleWorkUpdate`: send the edited fields with the numbers coerced (missing
      ones as 0), show them merged into the displayed work and leave edit mode, whether
      or not the request succeeded. */
  function HandleWorkUpdate(d: Details, st: WorkState, resp: Response<Work>): (r: HandlerStep)
    ensures |r.requests| == 1 && r.requests[0].PutWork? && r.requests[0].workId == d.work.id
    ensures r.requests[0].payload.budget == Some(d.editable.budget.GetOr(0))
    ensures r.requests[0].payload.totalMembers == Some(d.editable.totalMembers.GetOr(0))
    ensures r.requests[0].payload.title == Some(d.editable.title)
    ensures r.requests[0].payload.assignedTo == Many([])
    ensures r.details.current.budget == r.requests[0].payload.budget
    ensures r.details.current.totalMembers == r.requests[0].payload.totalMembers
    ensures Some(r.details.current.title) == r.requests[0].payload.title
    ensures Some(r.details.current.description) == r.requests[0].payload.description
    ensures Some(r.details.current.dueDate) == r.requests[0].payload.dueDate
    ensures r.details.current.assignedTo == Some([])
    ensures r.details.current.id == d.current.id && r.details.current.tasks == d.current.tasks
    ensures !r.details.editing && r.details.staff == d.staff
  {
    var e := d.editable;
    var payload := WorkPayload(Some(e.title), Some(e.description), Some(e.dueDate), None, None,
                               Some(e.totalMembers.GetOr(0)), Some(e.budget.GetOr(0)), Absent);
    var upd := UpdateWork(st, d.work.id, payload, resp);
    // `updateWork` overwrites `assignedTo` in the caller's object before sending it,
    // so the spread into the displayed work carries the normalized empty list.
    HandlerStep(d.(current := d.current.(title := e.title, description := e.description, dueDate := e.dueDate,
                                         totalMembers := payload.totalMembers, budget := payload.budget,
                                         assignedTo := Some([])),
                   editing := false),
                upd.state, [upd.request], "Work updated successfully!")
  }

  /** Reopening the panel on the work a save left displayed shows the form exactly as it
      was sent: the counts coerced to numbers, and no staff, since the save cleared them. */
  lemma ReopenAfterUpdate(d: Details, st: WorkState, resp: Response<Work>)
    ensures var r := HandleWorkUpdate(d, st, resp);
      var e := d.editable;
      OpenDetails(r.details.current).editable ==
        Editable(e.title, e.description, e.dueDate, Some(e.totalMembers.GetOr(0)), Some(e.budget.GetOr(0)))
    ensures OpenDetails(HandleWorkUpdate(d, st, resp).details.current).staff == []
  {
  }

  /** The panel's progress is the list's progress of the same work. */
  function Progress(d: Details): (p: nat)
    ensures p <= 100
    ensures d.work.tasks.None? || |d.work.tasks.value| == 0 ==> p == 0
    ensures d.work.tasks.Some? && |d.work.tasks.value| > 0 ==>
      p == WorkManagement.RoundedPercent(Seqs.Count(d.work.tasks.value, WorkManagement.IsDone), |d.work.tasks.value|)
  {
    WorkManagement.GetProgress(d.work)
  }
}

=== FILE: work_management.dfy ===
/** The work list view: the progress of a work order and the status label derived
    from it, the search box, the "assigned to me" highlight and the joined count. */
module WorkManagement {
  import opened Base
  import Seqs
  import Text
  import opened WorkContext

  predicate IsDone(t: Task) {
    t.status == "done"
  }

  /** `Math.round(done / total * 100)` over exact rationals: the nearest whole
      percentage, halves rounded up. */
  function RoundedPercent(done: nat, total: nat): (p: nat)
    requires 0 < total && done <= total
    ensures p * (2 * total) <= 200 * done + total < (p + 1) * (2 * total)
    ensures p <= 100
    ensures p == 100 <==> 200 * done >= 199 * total
    ensures p == 0 <==> 200 * done < total
  {
    var p := (200 * done + total) / (2 * total);
    PercentBounds(done, total, p);
    p
  }

  /** What the rounding equation says about the extreme percentages. */
  lemma PercentBounds(done: nat, total: nat, p: nat)
    requires 0 < total && done <= total
    requires p == (200 * done + total) / (2 * total)
    ensures p * (2 * total) <= 200 * done + total < (p + 1) * (2 * total)
    ensures p <= 100
    ensures p == 100 <==> 200 * done >= 199 * total
    ensures p == 0 <==> 200 * done < total
  {
    var n := 2 * total;
    var a := 200 * done + total;
    assert a == p * n + a % n;
    assert (p + 1) * n == p * n + n;
    if p >= 101 {
      assert p * n >= 101 * n by { MulMonotone(101, p, n); }
      assert false;
    }
    if p == 100 {
      assert 200 * n <= 2 * a;
    } else {
      assert p <= 99;
      assert (p + 1) * n <= 100 * n by { MulMonotone(p + 1, 100, n); }
    }
    if p == 0 {
      assert a < n;
    } else {
      assert n <= p * n by { MulMonotone(1, p, n); }
    }
  }

  lemma MulMonotone(a: nat, b: nat, n: nat)
    requires a <= b
    ensures a * n <= b * n
  {
  }

  /** `getProgress` (and the identical `progress` of the detail view): 0 when there
      are no tasks, else the rounded percentage of tasks whose status is "done". */
  function GetProgress(w: Work): (p: nat)
    ensures p <= 100
    ensures w.tasks.None? || |w.tasks.value| == 0 ==> p == 0
    ensures w.tasks.Some? && |w.tasks.value| > 0 ==>
      p == RoundedPercent(Seqs.Count(w.tasks.value, IsDone), |w.tasks.value|)
    ensures w.tasks.Some? && |w.tasks.value| > 0 ==>
      (p == 100 <==> 200 * Seqs.Count(w.tasks.value, IsDone) >= 199 * |w.tasks.value|)
    ensures w.tasks.Some? && |w.tasks.value| > 0 ==>
      (p == 0 <==> 200 * Seqs.Count(w.tasks.value, IsDone) < |w.tasks.value|)
  {
    match w.tasks
    case None => 0
    case Some(ts) => if |ts| == 0 then 0 else RoundedPercent(Seqs.Count(ts, IsDone), |ts|)
  }

  /** With fewer than 200 tasks, the progress is 100 exactly when every task is done;
      from 200 tasks on, one open task rounds away. */
  lemma CompletedIffAllDone(ts: seq<Task>)
    requires 0 < |ts| < 200
    ensures RoundedPercent(Seqs.Count(ts, IsDone), |ts|) == 100 <==> Seqs.Count(ts, IsDone) == |ts|
  {
  }

  /** Four tasks of which two are done make 50%. */
  lemma ProgressHalf()
    ensures RoundedPercent(2, 4) == 50
  {
  }

  /** The card's status label. */
  function StatusLabel(progress: int): (shown: string)
    requires 0 <= progress <= 100
    ensures shown == "Completed" <==> progress == 100
    ensures shown == "In Progress" <==> 0 < progress < 100
    ensures shown == "Pending" <==> progress == 0
  {
    if progress == 100 then "Completed"
    else if progress > 0 then "In Progress"
    else "Pending"
  }

  /** The label a work's card shows. */
  function WorkStatus(w: Work): string {
    StatusLabel(GetProgress(w))
  }

  /** A work is labelled "Completed" exactly when it has tasks and at least 99.5% of
      them are done. */
  lemma WorkStatusCompleted(w: Work)
    ensures WorkStatus(w) == "Completed" <==>
      w.tasks.Some? && |w.tasks.value| > 0 && 200 * Seqs.Count(w.tasks.value, IsDone) >= 199 * |w.tasks.value|
  {
  }

  /** The search: the lower-cased title or description includes the lower-cased term. */
  predicate MatchesSearch(w: Work, term: string) {
    Text.Contains(Text.ToLower(w.title), Text.ToLower(term)) ||
    Text.Contains(Text.ToLower(w.description), Text.ToLower(term))
  }

  /** `filteredWorks`: the works that match, in their original order. */
  function FilteredWorks(works: seq<Work>, term: string): (r: seq<Work>)
    ensures forall i :: 0 <= i < |r| ==> MatchesSearch(r[i], term) && r[i] in works
    ensures forall i :: 0 <= i < |works| && MatchesSearch(works[i], term) ==> works[i] in r
    ensures Seqs.IsSubsequence(r, works)
  {
    Seqs.Filter(works, (w: Work) => MatchesSearch(w, term))
  }

  /** An empty search term keeps the whole list, unchanged. */
  lemma EmptySearchKeepsAll(works: seq<Work>)
    ensures FilteredWorks(works, "") == works
  {
    forall i | 0 <= i < |works|
      ensures MatchesSearch(works[i], "")
    {
      Text.ContainsEmpty(Text.ToLower(works[i].title));
    }
    Seqs.FilterKeepsAll(works, (w: Work) => MatchesSearch(w, ""));
  }

  /** Searching is insensitive to the case of the term. */
  lemma SearchIgnoresCase(w: Work, term: string)
    ensures MatchesSearch(w, Text.ToLower(term)) == MatchesSearch(w, term)
  {
    Text.ToLowerIdempotent(term);
  }

  /** A work's own title always finds it. */
  lemma SearchFindsTitle(w: Work)
    ensures MatchesSearch(w, w.title)
  {
    Text.ContainsSelf(Text.ToLower(w.title));
  }

  /** `a.user?._id`: the id of the user an assignment points at, if any. */
  function AssigneeId(a: Assignment): Option<string> {
    if a.user.Some? then Some(a.user.value.id) else None
  }

  /** `isAssignedToMe`: some assignment's `user?._id` equals the current user's
      `_id`, where `me` is `None` when no user is logged in. `undefined === undefined`
      holds in JavaScript, so with no user an assignment without a user matches. */
  function IsAssignedToMe(w: Work, me: Option<string>): (b: bool)
    ensures b <==> me in Seqs.Map(w.assignedTo.GetOr([]), AssigneeId)
    ensures b ==> w.assignedTo.Some? && |w.assignedTo.value| > 0
  {
    w.assignedTo.Some? &&
    exists i | 0 <= i < |w.assignedTo.value| :: AssigneeId(w.assignedTo.value[i]) == me
  }

  /** For a logged-in user, the highlight means exactly that one of the work's
      assignments names that user. */
  lemma AssignedToMeMeansNamed(w: Work, myId: string)
    ensures IsAssignedToMe(w, Some(myId)) <==>
      w.assignedTo.Some? &&
      exists i | 0 <= i < |w.assignedTo.value| ::
        w.assignedTo.value[i].user.Some? && w.assignedTo.value[i].user.value.id == myId
  {
    if IsAssignedToMe(w, Some(myId)) {
      var i :| 0 <= i < |w.assignedTo.value| && AssigneeId(w.assignedTo.value[i]) == Some(myId);
      assert w.assignedTo.value[i].user.Some?;
    }
  }

  /** With nobody logged in, an assignment that lacks a user already highlights the card. */
  lemma NoUserMatchesUnlinkedAssignment(w: Work)
    requires w.assignedTo.Some? && |w.assignedTo.value| > 0 && w.assignedTo.value[0].user.None?
    ensures IsAssignedToMe(w, None)
  {
    assert AssigneeId(w.assignedTo.value[0]) == None;
  }

  /** The "Joined" count: the number of assignments, 0 when there are none. */
  function JoinedCount(w: Work): (n: nat)
    ensures w.assignedTo.None? ==> n == 0
    ensures w.assignedTo.Some? ==> n == |w.assignedTo.value|
  {
    if w.assignedTo.Some? then |w.assignedTo.value| else 0
  }
}
